=== FILE: README.md ===
# Pragma survival game and leaderboard — a Dafny model

This project models the two pieces of decision logic in the Pragma mini-app:

- **The leaderboard route** (`app/api/leaderboard/route.ts`). It keeps a
  process-wide store of one entry per wallet address and handles two requests.
  - `POST` validates a submitted `{ address, score }`. It normalises the address
    (trim, then lowercase), checks it against `^0x[a-f0-9]{40}$`, and records
    `max(0, floor(score))`. It merges that score into the previous entry: the
    best score is the larger one, the last score is overwritten, and the run
    count goes up by one. It replies with the entry and the top 100.
  - `GET` returns the top 100 and, when an address is given, the profile stored
    under its normal form.

  The top 100 come from sorting every entry by best score (descending), then by
  update time (descending), and slicing off the first hundred.
- **The game page** (`app/page.tsx`).
  - One animation-frame tick of the survival game, in the source's order:
    1. advance the clock (frames are capped at 0.04 s);
    2. move the player, clamped into the arena;
    3. spawn an enemy when the spawn cooldown runs out;
    4. fire at the nearest enemy when the shot cooldown runs out;
    5. enemies pursue the player;
    6. bullets fly and are culled;
    7. bullets remove the enemies they touch and count kills;
    8. the run ends on the first contact between an enemy and the player.
  - The score formula, and `resetGame`, `startGame` and `stopGame`.
  - The check-in follow-up: polling the wallet for a call batch's status, and
    extracting the transaction hash from that status.

Modules, one per file:

| module | file | contents |
|---|---|---|
| `Wrappers` | wrappers.dfy | `Option` for `undefined`/`null`/not found |
| `Json` | json.dfy | parsed JSON values; JavaScript truthiness, `?.name`, `?.[0]` |
| `Seqs` | seqs.dfy | order-preserving filter, subsequences, distinct keys |
| `Address` | address.dfy | `trim`, ASCII `toLowerCase`, `normalizeAddress`, the address pattern |
| `Entries` | entries.dfy | the entry record, score sanitising, the merge |
| `Ranking` | ranking.dfy | the comparator, a stable sort by it, the top-100 slice |
| `Leaderboard` | leaderboard.dfy | the insertion-ordered store, `POST`, `GET` |
| `Arena` | arena.dfy | constants, score, frame step, movement, spawn timing and spawn points |
| `Combat` | combat.dfy | enemies and bullets: pursuit, flight and culling, collisions, auto-fire |
| `Game` | game.dfy | the run state, reset/start/stop, the tick and its invariant |
| `Checkin` | checkin.dfy | `pollBatchStatus` and `extractTxHash` |

Inputs the code takes from the host are explicit parameters:

- `Date.now()` is `now`.
- The three `Math.random()` draws of a spawn are `Draws`.
- The frame timestamps are `elapsedMs`.
- `Math.hypot` is the function parameter `hypot`. It is used only to scale
  direction vectors. Every distance comparison (bullet against enemy, enemy
  against player, nearest enemy) is done on squared distances, which is exact
  over the reals.
- The wallet's replies to `wallet_getCallsStatus` are the function `replies`.

The JavaScript `Map` is a `Store` holding its keys in insertion order, since
`values()` yields that order. `Array.prototype.sort` is stable, so entries tied
on both sort keys come out in store order. The model's `Ranking.Sort` is a stable
insertion sort by the same comparator; it is proved to yield the same ranked,
tie-order-preserving permutation.

`stopGame` does not read the refs the tick has just updated. It reads `score`
from the render that created it (`app/page.tsx:130-135`). The effect that runs
the frame loop depends on `stopGame`, and `stopGame` depends on `score`, so the
effect re-runs on every score change (`app/page.tsx:152-272`). Each loop
schedules itself again every frame, but the cleanup cancels only the first frame
the effect requested (`app/page.tsx:268-273`). So each score change leaves one
more loop alive. The loop that sees the contact calls the `stopGame` of its own
render, possibly one in which the score was still 0. `Game.Tick` therefore
takes the score held by the stopping closure as an unconstrained parameter,
`shownScore`, and uses it for the best run. It is not the score of the last
render in general.

Facts of this code that the model keeps:

- A kill is worth 5 points (`app/page.tsx:107`).
- The first contact with an enemy ends the run (`app/page.tsx:257-262`).
- The leaderboard ranks by best score, then by update time
  (`app/api/leaderboard/route.ts:19-24`).
- The best score is the larger of the old best and the new score
  (`app/api/leaderboard/route.ts:52-53`), so best ≥ last always holds;
  `Entries.MergeKeepsConsistent` proves it.

## Model

| member | source | states |
|---|---|---|
| Address.TrimSplits | app/api/leaderboard/route.ts:27 | `trim` removes exactly a leading and a trailing run of white space: the input is lead + result + tail, and the result neither starts nor ends with white space |
| Address.TrimStart | app/api/leaderboard/route.ts:27 | the leading half of `trim`: the result is a suffix of the input, everything dropped is white space, and the result does not start with white space |
| Address.TrimEnd | app/api/leaderboard/route.ts:27 | the trailing half of `trim`: the result is a prefix of the input, everything dropped is white space, and the result does not end with white space |
| Address.Lower | app/api/leaderboard/route.ts:27 | `toLowerCase` keeps the length, turns each ASCII capital into its small letter and leaves every other character as it is |
| Address.NormalizeIdempotent | app/api/leaderboard/route.ts:26-28 | `Address.Normalize`, the model of `normalizeAddress` (trim, then lowercase), changes nothing when applied to its own result |
| Address.NormalizeIgnoresCaseAndPadding | app/api/leaderboard/route.ts:26-28 | two spellings that differ only by surrounding white space and ASCII letter case normalise to the same key |
| Address.ValidAddressIsNormal | app/api/leaderboard/route.ts:44-45 | any string `Address.IsValidAddress` (the pattern `^0x[a-f0-9]{40}$`) accepts is its own normal form, so it is the key it is stored under |
| Entries.SanitizeScore | app/api/leaderboard/route.ts:48 | the recorded score is a non-negative integer: the whole part of a non-negative score, zero for a negative one |
| Entries.Merge | app/api/leaderboard/route.ts:49-56 | the merged entry has the new last score and time, one more run than before, and a best score that is the larger of the old best (0 if none) and the new score |
| Entries.MergeKeepsConsistent | app/api/leaderboard/route.ts:52-54 | merging keeps every entry consistent (0 ≤ last ≤ best, at least one run); best score and run count never go down |
| Ranking.CompareMeansRank | app/api/leaderboard/route.ts:20-23 | the comparator is negative, zero or positive exactly when the first entry is ahead of, tied with, or behind the second |
| Ranking.SortPermutes | app/api/leaderboard/route.ts:20 | `Ranking.Sort`, the model of `getSorted`'s sort, returns a permutation of the store's entries |
| Ranking.SortRanks | app/api/leaderboard/route.ts:19-24 | sorted entries run by best score descending, then update time descending |
| Ranking.SortIsStable | app/api/leaderboard/route.ts:19-24 | entries tied on both keys keep their store order |
| Ranking.Top | app/api/leaderboard/route.ts:32 | the reply holds the first min(100, n) sorted entries |
| Ranking.TopHoldsTheBest | app/api/leaderboard/route.ts:19-24 | the top slice is ranked, drawn from the store, and no entry left out is ahead of one kept |
| Leaderboard.Put | app/api/leaderboard/route.ts:57 | `Map.set` stores the entry under its key; a new key goes last, an existing key keeps its place; the store stays a map |
| Leaderboard.Post | app/api/leaderboard/route.ts:38-65 | a POST answers 400 or 200; 400 exactly when the submission is rejected, and then the store is unchanged; an accepted reply carries the leaderboard of the updated store |
| Leaderboard.ReplayKeepsWellFormed | app/api/leaderboard/route.ts:38-65 | any series of POST requests keeps a well-formed store well formed and never drops an entry |
| Leaderboard.ReachableStoresWellFormed | app/api/leaderboard/route.ts:11-17 | every store reachable from the empty `Map` holds only valid lowercase addresses, each mapped to a consistent entry for itself |
| Leaderboard.PostRejectsMalformedBody | app/api/leaderboard/route.ts:39-63 | a body that is not JSON, a `null` body, or a truthy non-string address beside a numeric score reaches the catch: 400 "invalid request body", store unchanged |
| Leaderboard.PostRequiresFields | app/api/leaderboard/route.ts:41-43 | a body without a truthy address or without a numeric score is refused with "address and score are required" and the store is unchanged |
| Leaderboard.PostRejectsInvalidAddress | app/api/leaderboard/route.ts:44-47 | an address whose normal form fails the pattern is refused with "invalid address", and no entry exists under it afterwards |
| Leaderboard.PostAcceptsWritesMerge | app/api/leaderboard/route.ts:44-61 | an accepted submission answers 200 and stores under the normalised address exactly the previous entry there merged with the sanitised score; the reply carries that entry and the new board |
| Leaderboard.PostAccepts | app/api/leaderboard/route.ts:48-61 | the stored entry has this run's score as its last score, a best score no lower than this run or the previous best, one more run than before and the request time; the store stays well formed |
| Leaderboard.PostKeepsOtherEntries | app/api/leaderboard/route.ts:57 | an accepted submission adds or changes no key but its own, and every other entry is left as it was |
| Leaderboard.PostNeverLosesProgress | app/api/leaderboard/route.ts:49-57 | whatever is posted, no entry disappears and no best score or run count goes down |
| Leaderboard.Lookup | app/api/leaderboard/route.ts:49 | `Map.get` finds an entry exactly when the key is stored, and then it is the entry stored under that key |
| Leaderboard.BoardIsTopOfStore | app/api/leaderboard/route.ts:58-61 | `Leaderboard.Board`, the leaderboard in every reply, has min(100, n) entries, is ranked, comes from the store, and leaves out nothing that is ahead of an entry shown |
| Leaderboard.Get | app/api/leaderboard/route.ts:30-36 | a GET always returns the board; a missing or empty address gives no profile field; otherwise the profile is the entry under the normalised address, or null when there is none |
| Leaderboard.GetIgnoresCaseAndPadding | app/api/leaderboard/route.ts:34 | the profile a GET finds does not depend on surrounding white space or letter case |
| Arena.Score | app/page.tsx:107 | the score is the whole seconds survived plus 5 per kill |
| Arena.ScoreCountsKills | app/page.tsx:107 | for a non-negative time and kill count the score is non-negative, and one more kill adds exactly 5 |
| Arena.ScoreGrows | app/page.tsx:107 | the score never goes down as the time or the kills grow, for any integers, negative ones included |
| Arena.FrameDt | app/page.tsx:155 | the frame step is the elapsed time in seconds, capped at 0.04 |
| Arena.Clamp | app/page.tsx:177-184 | the clamped coordinate lies in the bounds, is the input when already inside, and the nearer bound otherwise |
| Arena.KeyDx | app/page.tsx:162-171 | the horizontal direction is −1, 0 or 1; it is negative exactly when only left is held and positive exactly when only right is held |
| Arena.KeyDy | app/page.tsx:164-171 | the vertical direction is −1, 0 or 1: negative exactly when up is held without down, positive exactly when down is held without up |
| Arena.Move | app/page.tsx:160-185 | with no direction the player stays put; with one, each coordinate is the point 165·dt px along the held direction (1/√2 of that per axis, as the double 0.7071067811865475, for two keys), or the nearest arena bound when that point lies outside [10, 310] × [10, 430]; a player inside stays inside and never moves against the held direction |
| Arena.SpawnInterval | app/page.tsx:189 | the spawn interval lies in [0.28, 0.9] from the start of a run and reaches its 0.28 floor by 12.4 s |
| Arena.SpawnIntervalShrinks | app/page.tsx:189 | the later in the run, the shorter the spawn interval |
| Arena.SpeedBonus | app/page.tsx:196 | the time-based part of a new enemy's speed is capped at 90, reached by 54 s |
| Arena.SpeedBonusGrows | app/page.tsx:196 | the later in the run, the larger the speed bonus |
| Arena.EnemySpeed | app/page.tsx:196 | with random draws in [0, 1), a new enemy's speed lies in [40, 165) |
| Arena.SpawnPoint | app/page.tsx:45-51 | a spawn point lies 16 px beyond one of the four edges, along that edge, and so outside the arena |
| Arena.SpawnEdgeByQuarter | app/page.tsx:46-50 | the quarter of [0, 1) the first draw falls in picks top, right, bottom or left |
| Combat.Pursue | app/page.tsx:222-228 | a pursuing enemy keeps its id, radius and speed, and its step lies on the line through it and the player |
| Combat.PursueHeadsForPlayer | app/page.tsx:222-228 | when `Math.hypot` gives a non-negative length and the step and speed are non-negative, the step goes toward the player on each axis, never away |
| Combat.StepBullets | app/page.tsx:230-237 | after flight and culling, every bullet left is alive and strictly inside the arena widened by 20; survivors keep their order; no advanced bullet in flight is dropped |
| Combat.SweepEnemiesOutcome | app/page.tsx:242-249 | one bullet removes every not-yet-removed enemy it touches, counts one kill for each, and is spent exactly when it removed something |
| Combat.SweepBulletsOutcome | app/page.tsx:239-250 | the whole pass removes exactly the enemies some bullet touches, and counts one kill per removed id |
| Combat.SweepBulletsSpends | app/page.tsx:239-250 | the pass marks as spent only bullets that took part in it, and only ones that touch at least one enemy |
| Combat.ResolveHits | app/page.tsx:239-250 | the nested collision loops compute the removed enemy ids, spent bullet ids and kills of the pass |
| Combat.RemovedExactlyShot | app/page.tsx:239-250 | with distinct enemy ids, an enemy is removed exactly when some bullet touches it, and the kills added equal the number of enemies removed |
| Combat.SurvivorsCount | app/page.tsx:239-255 | with distinct enemy ids, the kills the pass adds equal the number of enemies the filter drops |
| Combat.SurvivorsAreUnshot | app/page.tsx:252-255 | with distinct enemy ids, the surviving enemies keep their order and are exactly those no bullet touches |
| Combat.NoRemovalNoSpending | app/page.tsx:243-248 | a bullet is marked spent only together with an enemy it removes, so a pass that removes no enemy spends no bullet |
| Combat.SpentBulletsDropped | app/page.tsx:251-255 | the bullets left after the pass are exactly the unspent ones, in their original order, including when nothing was removed and the filter is skipped |
| Combat.Nearest | app/page.tsx:203-205 | the target is the first enemy at minimum distance from the player, the head of the stable sort by distance; there is none exactly when there are no enemies |
| Combat.Aim | app/page.tsx:207-218 | a fired bullet takes the given id, starts at the player with life 1.2, and its velocity lies on the line through the player and the target |
| Combat.AimHeadsForTarget | app/page.tsx:207-218 | when `Math.hypot` gives a non-negative length, the bullet flies toward the target on each axis, and it moves unless the target sits on the player |
| Combat.AutoFire | app/page.tsx:200-220 | the shot cooldown runs down by the frame step; when it expires it is reset to 0.33, and a bullet is fired exactly when enemies exist, aimed at the nearest enemy and taking the next id; otherwise the id counter is unchanged |
| Game.Reset | app/page.tsx:109-122 | reset puts the player back in the centre and leaves no enemies, bullets or kills, a zero clock, zero cooldowns and a zero score; it establishes the run invariant and keeps the id counter, run flag and best run |
| Game.ResetForgetsTheRun | app/page.tsx:109-122 | a reset depends only on the run flag, the id counter and the best run: nothing else of the run before survives it |
| Game.Start | app/page.tsx:124-128 | start is a reset that runs: player in the centre, no enemies, bullets or kills, zero clock and cooldowns, zero score, id counter and best run kept |
| Game.InitialIsIdle | app/page.tsx:80-105 | the page as first rendered is not running, satisfies the run invariant and shows a zero score, and its first run hands out ids from 1 |
| Game.Stop | app/page.tsx:130-135 | stopping ends the run and raises the best run to the score it was given, changing nothing else |
| Game.Spawn | app/page.tsx:187-198 | while the spawn cooldown lasts only the cooldown runs down; once it expires exactly one enemy is appended, with the next id, the enemy radius, outside the arena, with speed in [40, 165), and the cooldown restarts from the spawn interval |
| Game.Begin | app/page.tsx:155-185 | the clock never runs back on a non-negative step, a player inside the arena stays inside, and enemies, bullets, kills and ids are left alone |
| Game.Fire | app/page.tsx:200-220 | exactly when the cooldown runs out with an enemy present one bullet is appended, with the next id, at the player, with life 1.2, in flight when the player is inside; earlier bullets, enemies, player and kills are untouched |
| Game.Fly | app/page.tsx:222-237 | every enemy stays with its id, radius and speed; the bullets left are in flight, in their old order, and no more than before; player, kills and ids are untouched |
| Game.Collide | app/page.tsx:239-255 | survivors and remaining bullets keep their order and kills never go down; with distinct enemy ids an enemy survives exactly when no bullet touches it and the kills added equal the enemies dropped |
| Game.Tick | app/page.tsx:152-267 | a stopped game does not change; a running one moves the player, advances the clock by the frame step, and keeps running exactly when no enemy touches the player (`Game.AnyContact`, the `some` test of lines 257-259); the best run rises only when the run ends |
| Game.TickKeepsInv | app/page.tsx:152-267 | every tick keeps the run invariant: player inside the arena, distinct ids already handed out, bullets in flight, enemies of radius 11, kills non-negative |
| Game.TickCountsKills | app/page.tsx:239-255 | over a tick, the remaining enemies keep their order, an enemy is removed exactly when a bullet in flight touches it, and kills grow by the number removed |
| Game.TickScoreGrows | app/page.tsx:155-159 | while frames do not go back in time, the clock and the shown score never decrease, from any clock value |
| Checkin.Settle | app/page.tsx:60-63 | a reply that is not pending settles polling: status 200 confirms with the status object, a rejected request is the provider's error, any other code fails with that code |
| Checkin.PollBatchStatus | app/page.tsx:53-66 | polling makes at most 15 requests; it times out exactly when all 15 replies are pending, and otherwise stops at the first reply that is not, after pending replies only |
| Checkin.ExtractTxHash | app/page.tsx:68-75 | the first receipt's transaction hash wins when it is a string, then the first transaction's hash, otherwise there is none; a hash is only ever found in an object |

## Left out

- Wallet flows (`connect`, `submitGasless`, the capability check, the chain switch, `wallet_sendCalls`) and `buildCheckinData`: foreign RPC calls and library encoding with no decision logic of their own.
- The paymaster proxy, share-image, webhook and layout routes and `lib/gameAbi.ts`: proxying, markup and constant data.
- React state setters, key listeners and the `requestAnimationFrame` plumbing. A tick is a pure function of the state, the held keys and the elapsed time; key-name lookup (`keys.a || keys.arrowleft`) is reduced to the four booleans of `Arena.Keys`. The effect's cleanup cancels only the first frame it requested, so every score change leaves one more frame loop alive. This leak is not modelled, and it has two effects:
  - The loop that detects a contact stops the run with the score its own render captured, which may be stale, possibly 0. The model covers this only by leaving `shownScore` unconstrained.
  - Every live loop adds its own elapsed time to the clock and steps the world again in the same animation frame, so the game runs faster the longer a run lasts. `Game.Tick` models one loop's step.
- The 1500 ms wait between status requests, and the text of the error messages `pollBatchStatus` throws. The outcome datatype carries the status code in their place.
- Floating point: positions, times and speeds are reals. `Math.hypot` is a parameter only where it scales a direction, in pursuit and aiming. The movement step divides by the exact length 1, or by √2 through the double constant `0.7071067811865475`. Where the source's `dist` (`app/page.tsx:39-43`, also `Math.hypot`) decides something, the model compares exact squared distances (`Arena.DistSq`): the nearest target, bullet hits and player contact. A pair whose rounded `Math.hypot` lands on the other side of the threshold is therefore not modelled, and neither is rounding in bullet velocities and pursuit steps.
- Combat.Aim: states only the line of the velocity; `Combat.AimHeadsForTarget` adds its sense when `Math.hypot` returns a non-negative length. Neither states the speed of 280, which would need more properties of `Math.hypot`.
- Combat.Pursue: states only the line of the step; `Combat.PursueHeadsForPlayer` adds its sense under the same assumption. Neither states the length of the step.
- Infinite scores: JSON numbers are finite reals here. `JSON.parse` turns an oversized literal such as `1e999` into `Infinity`, which the route would store as the score; that case is not modelled. Nor is the rounding of a JSON number to a double before `Math.floor`: `0.99999999999999999` parses as 1 and is recorded as 1 by the route, while `Entries.SanitizeScore` on the exact real gives 0.
- Case mapping beyond ASCII: `toLowerCase` is modelled on `A`–`Z` only. No other character lowercases into `[0-9a-fx]`, so which addresses are accepted does not change. Unicode white space for `trim` is covered.
- The JavaScript engine's sort algorithm: any stable sort with a consistent comparator gives the same output, so an insertion sort stands in for it.
- Concurrent requests to the route: a POST is one atomic update of the store.
- Game.TickScoreGrows: requires the frame timestamp not to go back (`elapsedMs >= 0`). The first frame's timestamp can precede the `performance.now()` taken when the effect starts, which gives a slightly negative step.

=== FILE: address.dfy ===
/** Address normalisation for the leaderboard: JavaScript's `String.prototype.trim`
    followed by `toLowerCase`, and the `^0x[a-f0-9]{40}$` address pattern. */
module Address {

  /** The characters `trim` removes: ECMAScript WhiteSpace and LineTerminator. */
  predicate IsSpace(c: char) {
    c in SpaceChars || ('\U{2000}' <= c <= '\U{200A}')
  }

  const SpaceChars: set<char> := {
    '\t', '\n', '\U{B}', '\U{C}', '\r', ' ', '\U{A0}', '\U{1680}',
    '\U{2028}', '\U{2029}', '\U{202F}', '\U{205F}', '\U{3000}', '\U{FEFF}'
  }

  /** Every character of `s` satisfies `ws`. */
  ghost predicate AllSpace(s: string, ws: char -> bool) {
    forall i :: 0 <= i < |s| ==> ws(s[i])
  }

  /** Neither end of `s` satisfies `ws`. */
  ghost predicate Trimmed(s: string, ws: char -> bool) {
    s == [] || (!ws(s[0]) && !ws(s[|s| - 1]))
  }

  /** Drops the leading characters satisfying `ws`. */
  function TrimStart(s: string, ws: char -> bool): (r: string)
    ensures |r| <= |s| && r == s[|s| - |r|..]
    ensures forall k :: 0 <= k < |s| - |r| ==> ws(s[k])
    ensures r != [] ==> !ws(r[0])
  {
    if s != [] && ws(s[0]) then
      var t := s[1..];
      var r := TrimStart(t, ws);
      assert t[|t| - |r|..] == s[|s| - |r|..];
      assert forall k :: 1 <= k < |s| ==> t[k - 1] == s[k];
      r
    else s
  }

  /** Drops the trailing characters satisfying `ws`. */
  function TrimEnd(s: string, ws: char -> bool): (r: string)
    ensures |r| <= |s| && r == s[..|r|]
    ensures forall k :: |r| <= k < |s| ==> ws(s[k])
    ensures r != [] ==> !ws(r[|r| - 1])
  {
    if s != [] && ws(s[|s| - 1]) then
      var t := s[..|s| - 1];
      var r := TrimEnd(t, ws);
      assert t[..|r|] == s[..|r|];
      assert forall k :: 0 <= k < |t| ==> t[k] == s[k];
      r
    else s
  }

  function TrimBy(s: string, ws: char -> bool): string {
    TrimEnd(TrimStart(s, ws), ws)
  }

  /** `String.prototype.trim`. */
  function Trim(s: string): string {
    TrimBy(s, IsSpace)
  }

  predicate IsUpperAscii(c: char) {
    'A' <= c <= 'Z'
  }

  /** `toLowerCase` on one character, for the ASCII letters. */
  function LowerChar(c: char): (r: char)
    ensures !IsUpperAscii(r)
    ensures !IsUpperAscii(c) ==> r == c
    ensures IsUpperAscii(c) ==> r as int - 'a' as int == c as int - 'A' as int
  {
    if IsUpperAscii(c) then (c as int - 'A' as int + 'a' as int) as char else c
  }

  function Lower(s: string): (r: string)
    ensures |r| == |s|
    ensures forall i :: 0 <= i < |s| ==> r[i] == LowerChar(s[i])
  {
    seq(|s|, i requires 0 <= i < |s| => LowerChar(s[i]))
  }

  /** `normalizeAddress`: trim, then lowercase. */
  function Normalize(s: string): string {
    Lower(Trim(s))
  }

  predicate IsLowerHex(c: char) {
    ('0' <= c <= '9') || ('a' <= c <= 'f')
  }

  /** The pattern `^0x[a-f0-9]{40}$` (no multiline flag, so `$` is the end of input). */
  predicate IsValidAddress(s: string) {
    && |s| == 42
    && s[0] == '0' && s[1] == 'x'
    && forall i :: 2 <= i < 42 ==> IsLowerHex(s[i])
  }

  /** Trimming removes exactly the runs at both ends: `s` splits into a
      leading run, the result, and a trailing run. */
  lemma TrimSplits(s: string, ws: char -> bool) returns (pre: string, post: string)
    ensures Trimmed(TrimBy(s, ws), ws)
    ensures AllSpace(pre, ws) && AllSpace(post, ws)
    ensures s == pre + TrimBy(s, ws) + post
  {
    TrimResultTrimmed(s, ws);
    var t := TrimStart(s, ws);
    var r := TrimEnd(t, ws);
    assert r == TrimBy(s, ws);
    pre := TrimStartSplit(s, ws);
    post := TrimEndSplit(t, ws);
    Assoc(pre, r, post);
  }

  lemma Assoc(a: string, b: string, c: string)
    ensures a + (b + c) == a + b + c
  {
  }

  lemma TrimResultTrimmed(s: string, ws: char -> bool)
    ensures Trimmed(TrimBy(s, ws), ws)
  {
    var t := TrimStart(s, ws);
    var r := TrimEnd(t, ws);
    if r != [] {
      assert r[0] == t[0];
    }
  }

  /** `TrimStart` drops a leading run of `ws` characters. */
  lemma TrimStartSplit(s: string, ws: char -> bool) returns (pre: string)
    ensures AllSpace(pre, ws) && s == pre + TrimStart(s, ws)
  {
    var t := TrimStart(s, ws);
    pre := s[..|s| - |t|];
    forall k | 0 <= k < |pre| ensures ws(pre[k]) {
      assert pre[k] == s[k];
    }
    assert s == s[..|s| - |t|] + s[|s| - |t|..];
  }

  /** `TrimEnd` drops a trailing run of `ws` characters. */
  lemma TrimEndSplit(t: string, ws: char -> bool) returns (post: string)
    ensures AllSpace(post, ws) && t == TrimEnd(t, ws) + post
  {
    var r := TrimEnd(t, ws);
    post := t[|r|..];
    forall k | 0 <= k < |post| ensures ws(post[k]) {
      assert post[k] == t[|r| + k];
    }
    assert t == t[..|r|] + t[|r|..];
  }

  lemma {:induction false} TrimStartSkipsSpaces(pre: string, t: string, ws: char -> bool)
    requires AllSpace(pre, ws)
    ensures TrimStart(pre + t, ws) == TrimStart(t, ws)
    decreases |pre|
  {
    if pre != [] {
      assert (pre + t)[0] == pre[0];
      assert (pre + t)[1..] == pre[1..] + t;
      assert AllSpace(pre[1..], ws) by {
        forall i | 0 <= i < |pre[1..]| ensures ws(pre[1..][i]) {
          assert pre[1..][i] == pre[i + 1];
        }
      }
      TrimStartSkipsSpaces(pre[1..], t, ws);
    } else {
      assert pre + t == t;
    }
  }

  lemma {:induction false} TrimEndSkipsSpaces(t: string, post: string, ws: char -> bool)
    requires AllSpace(post, ws)
    ensures TrimEnd(t + post, ws) == TrimEnd(t, ws)
    decreases |post|
  {
    if post != [] {
      var p' := post[..|post| - 1];
      assert (t + post)[|t + post| - 1] == post[|post| - 1];
      assert (t + post)[..|t + post| - 1] == t + p';
      assert AllSpace(p', ws) by {
        forall i | 0 <= i < |p'| ensures ws(p'[i]) {
          assert p'[i] == post[i];
        }
      }
      TrimEndSkipsSpaces(t, p', ws);
    } else {
      assert t + post == t;
    }
  }

  /** `TrimStart` keeps a string that does not start with a `ws` character. */
  lemma TrimStartStops(x: string, ws: char -> bool)
    requires x == [] || !ws(x[0])
    ensures TrimStart(x, ws) == x
  {
  }

  /** `TrimEnd` keeps a string that does not end with a `ws` character. */
  lemma TrimEndStops(x: string, ws: char -> bool)
    requires x == [] || !ws(x[|x| - 1])
    ensures TrimEnd(x, ws) == x
  {
  }

  /** Trimming a string with no `ws` character at either end changes nothing. */
  lemma TrimOfTrimmed(x: string, ws: char -> bool)
    requires Trimmed(x, ws)
    ensures TrimBy(x, ws) == x
  {
    TrimStartStops(x, ws);
    TrimEndStops(x, ws);
  }

  /** Trimming is determined by the split: whatever runs surround a trimmed
      middle part, trimming returns that middle part. */
  lemma TrimOfSplit(pre: string, m: string, post: string, ws: char -> bool)
    requires AllSpace(pre, ws) && AllSpace(post, ws) && Trimmed(m, ws)
    ensures TrimBy(pre + m + post, ws) == m
  {
    var x := m + post;
    assert pre + m + post == pre + x;
    TrimStartSkipsSpaces(pre, x, ws);
    if m == [] {
      assert x == post + [];
      TrimStartSkipsSpaces(post, [], ws);
      assert TrimStart(pre + m + post, ws) == [];
    } else {
      assert x[0] == m[0];
      TrimStartStops(x, ws);
      assert TrimStart(pre + m + post, ws) == x;
      TrimEndSkipsSpaces(m, post, ws);
      TrimEndStops(m, ws);
    }
  }

  lemma LowerConcat(a: string, b: string)
    ensures Lower(a + b) == Lower(a) + Lower(b)
  {
  }

  /** Lowercasing never turns a space character into a non-space one or back. */
  lemma LowerKeepsSpaceChars(c: char)
    ensures IsSpace(LowerChar(c)) == IsSpace(c)
  {
  }

  lemma LowerKeepsSpaces(s: string)
    ensures AllSpace(s, IsSpace) ==> AllSpace(Lower(s), IsSpace)
    ensures Trimmed(s, IsSpace) ==> Trimmed(Lower(s), IsSpace)
  {
    forall i | 0 <= i < |s| ensures IsSpace(Lower(s)[i]) == IsSpace(s[i]) {
      LowerKeepsSpaceChars(s[i]);
    }
  }

  /** Lowercasing and trimming commute. */
  lemma TrimLower(s: string)
    ensures Trim(Lower(s)) == Lower(Trim(s))
  {
    var pre, post := TrimSplits(s, IsSpace);
    var m := Trim(s);
    LowerConcat(pre, m);
    LowerConcat(pre + m, post);
    LowerKeepsSpaces(pre);
    LowerKeepsSpaces(m);
    LowerKeepsSpaces(post);
    TrimOfSplit(Lower(pre), Lower(m), Lower(post), IsSpace);
  }

  lemma LowerIdempotent(s: string)
    ensures Lower(Lower(s)) == Lower(s)
  {
  }

  /** Normalising twice is normalising once. */
  lemma NormalizeIdempotent(s: string)
    ensures Normalize(Normalize(s)) == Normalize(s)
  {
    var t := Trim(s);
    TrimResultTrimmed(s, IsSpace);
    LowerKeepsSpaces(t);
    TrimOfTrimmed(Lower(t), IsSpace);
    LowerIdempotent(t);
  }

  /** Surrounding runs of `ws` characters do not change the trimmed result. */
  lemma TrimIgnoresPadding(pre: string, m: string, post: string, ws: char -> bool)
    requires AllSpace(pre, ws) && AllSpace(post, ws)
    ensures TrimBy(pre + m + post, ws) == TrimBy(m, ws)
  {
    var p1, p2 := TrimSplits(m, ws);
    var t := TrimBy(m, ws);
    AllSpaceConcat(pre, p1, ws);
    AllSpaceConcat(p2, post, ws);
    Regroup(pre, p1, t, p2, post);
    TrimOfSplit(pre + p1, t, p2 + post, ws);
  }

  lemma Regroup(a: string, b: string, c: string, d: string, e: string)
    ensures a + (b + c + d) + e == (a + b) + c + (d + e)
  {
    assert a + (b + c + d) == (a + b) + c + d;
  }

  /** Strings that differ only by surrounding spaces and ASCII letter case
      normalise to the same key. */
  lemma NormalizeIgnoresCaseAndPadding(pre: string, a: string, b: string, post: string)
    requires AllSpace(pre, IsSpace) && AllSpace(post, IsSpace)
    requires Lower(a) == Lower(b)
    ensures Normalize(pre + a + post) == Normalize(b)
  {
    var s := pre + a + post;
    TrimLower(s);
    TrimLower(b);
    LowerConcat(pre, a);
    LowerConcat(pre + a, post);
    LowerKeepsSpaces(pre);
    LowerKeepsSpaces(post);
    TrimIgnoresPadding(Lower(pre), Lower(b), Lower(post), IsSpace);
  }

  lemma AllSpaceConcat(a: string, b: string, ws: char -> bool)
    requires AllSpace(a, ws) && AllSpace(b, ws)
    ensures AllSpace(a + b, ws)
  {
  }

  /** A valid address is already in normal form, so it is its own lookup key. */
  lemma ValidAddressIsNormal(s: string)
    requires IsValidAddress(s)
    ensures Normalize(s) == s
  {
    ValidAddressIsTrimmed(s);
    ValidAddressIsLower(s);
  }

  lemma ValidAddressIsTrimmed(s: string)
    requires IsValidAddress(s)
    ensures Trim(s) == s
  {
    assert Trimmed(s, IsSpace) by {
      assert !IsSpace(s[0]);
      assert IsLowerHex(s[41]);
    }
    TrimOfTrimmed(s, IsSpace);
  }

  lemma ValidAddressIsLower(s: string)
    requires IsValidAddress(s)
    ensures Lower(s) == s
  {
    forall i | 0 <= i < |s| ensures LowerChar(s[i]) == s[i] {
      assert !IsUpperAscii(s[i]) by {
        if i >= 2 {
          assert IsLowerHex(s[i]);
        }
      }
    }
  }
}

=== FILE: arena.dfy ===
/** The arena geometry and the per-tick numeric rules of the game page: the
    score formula, the frame step cap, player movement and clamping, and the
    spawn timing and enemy speed schedules. */
module Arena {

  const Width: real := 320.0
  const Height: real := 440.0
  const PlayerRadius: real := 10.0
  const EnemyRadius: real := 11.0
  const BulletRadius: real := 3.0
  /** Seconds; longer frames are cut to this. */
  const MaxFrameDt: real := 0.04
  /** Pixels per second. */
  const PlayerSpeed: real := 165.0
  /** How far outside an edge new enemies appear. */
  const SpawnOffset: real := 16.0
  /** Points per kill. */
  const KillPoints: int := 5
  /** The normalised component of a diagonal key direction, 1/√2 as a double. */
  const Diagonal: real := 0.7071067811865475

  datatype Vec = Vec(x: real, y: real)

  /** Squared distance; comparing it with a squared radius is comparing
      `Math.hypot` with that radius. */
  function DistSq(x1: real, y1: real, x2: real, y2: real): real {
    (x1 - x2) * (x1 - x2) + (y1 - y2) * (y1 - y2)
  }

  /** `Math.floor(timeMs / 1000) + kills * 5`. */
  function Score(timeMs: int, kills: int): (r: int)
    ensures (r - KillPoints * kills) * 1000 <= timeMs < (r - KillPoints * kills + 1) * 1000
  {
    timeMs / 1000 + kills * KillPoints
  }

  /** The score counts whole seconds survived plus five per kill: it is never
      negative for a non-negative time and kill count, and one more kill adds
      exactly five. */
  lemma ScoreCountsKills(t: int, k: int)
    requires 0 <= t && 0 <= k
    ensures 0 <= Score(t, k)
    ensures Score(t, k + 1) == Score(t, k) + KillPoints
  {
  }

  /** The score never goes down as the time or the kills grow, whatever their
      signs: a whole-second floor is monotone on every integer. */
  lemma ScoreGrows(t1: int, k1: int, t2: int, k2: int)
    requires t1 <= t2 && k1 <= k2
    ensures Score(t1, k1) <= Score(t2, k2)
  {
    var q1, q2 := t1 / 1000, t2 / 1000;
    assert q1 * 1000 <= t1 && t2 < (q2 + 1) * 1000;
    assert q1 <= q2;
  }

  /** `Math.min((now - last) / 1000, 0.04)`, with `elapsedMs = now - last`. */
  function FrameDt(elapsedMs: real): (dt: real)
    ensures dt <= MaxFrameDt && dt <= elapsedMs / 1000.0
    ensures dt == MaxFrameDt || dt == elapsedMs / 1000.0
  {
    var d := elapsedMs / 1000.0;
    if d < MaxFrameDt then d else MaxFrameDt
  }

  /** `Math.max(lo, Math.min(hi, v))`: the point of [lo, hi] nearest to `v`. */
  function Clamp(lo: real, hi: real, v: real): (r: real)
    requires lo <= hi
    ensures lo <= r <= hi
    ensures lo <= v <= hi ==> r == v
    ensures v < lo ==> r == lo
    ensures v > hi ==> r == hi
  {
    var m := if hi < v then hi else v;
    if lo > m then lo else m
  }

  /** Where the player's centre may be: the arena shrunk by the player's radius. */
  predicate InArena(p: Vec) {
    PlayerRadius <= p.x <= Width - PlayerRadius && PlayerRadius <= p.y <= Height - PlayerRadius
  }

  /** The held direction keys (`a`/arrow-left, `d`/arrow-right, `w`/arrow-up, `s`/arrow-down). */
  datatype Keys = Keys(left: bool, right: bool, up: bool, down: bool)

  /** Horizontal key direction: −1, 0 or 1; opposite keys cancel. */
  function KeyDx(k: Keys): (dx: int)
    ensures -1 <= dx <= 1
    ensures dx < 0 <==> k.left && !k.right
    ensures dx > 0 <==> k.right && !k.left
  {
    (if k.left then -1 else 0) + (if k.right then 1 else 0)
  }

  /** Vertical key direction: −1 (up), 0 or 1 (down). */
  function KeyDy(k: Keys): (dy: int)
    ensures -1 <= dy <= 1
    ensures dy < 0 <==> k.up && !k.down
    ensures dy > 0 <==> k.down && !k.up
  {
    (if k.up then -1 else 0) + (if k.down then 1 else 0)
  }

  /** One component of the key direction divided by its length (`Math.hypot`). */
  function UnitComponent(d: int, other: int): (u: real)
    requires -1 <= d <= 1 && -1 <= other <= 1
    ensures d == 0 ==> u == 0.0
    ensures d > 0 ==> u > 0.0
    ensures d < 0 ==> u < 0.0
  {
    if d == 0 then 0.0
    else if other == 0 then d as real
    else d as real * Diagonal
  }

  /** Where a held direction would take the player in `dt` seconds before
      clamping: 165 px/s along one axis, or `Diagonal` of that on each axis when
      two perpendicular keys are held. */
  function Unclamped(p: Vec, keys: Keys, dt: real): Vec {
    var l := StepLength(keys, dt);
    Vec(p.x + KeyDx(keys) as real * l, p.y + KeyDy(keys) as real * l)
  }

  /** How far the player goes along each held axis in `dt` seconds. */
  function StepLength(keys: Keys, dt: real): real {
    if KeyDx(keys) != 0 && KeyDy(keys) != 0 then Diagonal * PlayerSpeed * dt else PlayerSpeed * dt
  }

  /** The movement step: with a direction held, move at 165 px/s for `dt` seconds
      and clamp into the arena; with none, stay put. */
  function Move(p: Vec, keys: Keys, dt: real): (q: Vec)
    ensures KeyDx(keys) == 0 && KeyDy(keys) == 0 ==> q == p
    ensures KeyDx(keys) != 0 || KeyDy(keys) != 0 ==>
              var t := Unclamped(p, keys, dt);
              && InArena(q)
              && (PlayerRadius <= t.x <= Width - PlayerRadius ==> q.x == t.x)
              && (t.x < PlayerRadius ==> q.x == PlayerRadius)
              && (t.x > Width - PlayerRadius ==> q.x == Width - PlayerRadius)
              && (PlayerRadius <= t.y <= Height - PlayerRadius ==> q.y == t.y)
              && (t.y < PlayerRadius ==> q.y == PlayerRadius)
              && (t.y > Height - PlayerRadius ==> q.y == Height - PlayerRadius)
    ensures InArena(p) ==> InArena(q)
    ensures InArena(p) && dt >= 0.0 ==>
              && (KeyDx(keys) < 0 ==> q.x <= p.x)
              && (KeyDx(keys) == 0 ==> q.x == p.x)
              && (KeyDx(keys) > 0 ==> q.x >= p.x)
              && (KeyDy(keys) < 0 ==> q.y <= p.y)
              && (KeyDy(keys) == 0 ==> q.y == p.y)
              && (KeyDy(keys) > 0 ==> q.y >= p.y)
  {
    if KeyDx(keys) == 0 && KeyDy(keys) == 0 then p
    else
      var t := Step(p, keys, dt);
      UnclampedHeads(p, keys, dt);
      Vec(Clamp(PlayerRadius, Width - PlayerRadius, t.x), Clamp(PlayerRadius, Height - PlayerRadius, t.y))
  }

  /** `p + (dx, dy) / Math.hypot(dx, dy) * 165 * dt`, computed as the source does,
      is the unclamped point. */
  function Step(p: Vec, keys: Keys, dt: real): (r: Vec)
    ensures r == Unclamped(p, keys, dt)
  {
    var dx, dy := KeyDx(keys), KeyDy(keys);
    var ux, uy := UnitComponent(dx, dy), UnitComponent(dy, dx);
    var l := StepLength(keys, dt);
    UnitStep(dx, dy, dt);
    UnitStep(dy, dx, dt);
    var sx, sy := ux * PlayerSpeed * dt, uy * PlayerSpeed * dt;
    assert sx == dx as real * l && sy == dy as real * l;
    Vec(p.x + sx, p.y + sy)
  }

  /** For a non-negative `dt` the unclamped point lies on the held side of the
      player on each axis. */
  lemma UnclampedHeads(p: Vec, keys: Keys, dt: real)
    ensures var t := Unclamped(p, keys, dt);
            dt >= 0.0 ==>
              && (KeyDx(keys) < 0 ==> t.x <= p.x)
              && (KeyDx(keys) == 0 ==> t.x == p.x)
              && (KeyDx(keys) > 0 ==> t.x >= p.x)
              && (KeyDy(keys) < 0 ==> t.y <= p.y)
              && (KeyDy(keys) == 0 ==> t.y == p.y)
              && (KeyDy(keys) > 0 ==> t.y >= p.y)
  {
    var dx, dy := KeyDx(keys), KeyDy(keys);
    var step := StepLength(keys, dt);
    if dt >= 0.0 {
      assert step >= 0.0;
      assert dx < 0 ==> dx as real * step <= 0.0;
      assert dx > 0 ==> dx as real * step >= 0.0;
      assert dy < 0 ==> dy as real * step <= 0.0;
      assert dy > 0 ==> dy as real * step >= 0.0;
    }
  }

  /** The normalised key component times the speed and `dt` is the key direction
      times the step `Unclamped` takes. */
  lemma UnitStep(d: int, other: int, dt: real)
    requires -1 <= d <= 1 && -1 <= other <= 1
    ensures UnitComponent(d, other) * PlayerSpeed * dt
            == d as real * (if d != 0 && other != 0 then Diagonal * PlayerSpeed * dt else PlayerSpeed * dt)
  {
    if d != 0 && other != 0 {
      assert (d as real * Diagonal) * PlayerSpeed * dt == d as real * (Diagonal * PlayerSpeed * dt);
    }
  }

  /** The spawn cooldown set after each spawn, `Math.max(0.28, 0.9 - timeMs / 20000)`. */
  function SpawnInterval(timeMs: real): (r: real)
    ensures r >= 0.28
    ensures timeMs >= 0.0 ==> r <= 0.9
    ensures timeMs >= 12400.0 ==> r == 0.28
  {
    var d := 0.9 - timeMs / 20000.0;
    if 0.28 > d then 0.28 else d
  }

  /** The later in the run, the shorter the spawn interval. */
  lemma SpawnIntervalShrinks(t1: real, t2: real)
    requires t1 <= t2
    ensures SpawnInterval(t2) <= SpawnInterval(t1)
  {
    assert t1 / 20000.0 <= t2 / 20000.0;
  }

  /** The time-dependent part of a new enemy's speed, `Math.min(90, timeMs / 600)`. */
  function SpeedBonus(timeMs: real): (r: real)
    ensures r <= 90.0
    ensures timeMs >= 0.0 ==> r >= 0.0
    ensures timeMs >= 54000.0 ==> r == 90.0
  {
    var d := timeMs / 600.0;
    if 90.0 < d then 90.0 else d
  }

  /** The later in the run, the faster new enemies are. */
  lemma SpeedBonusGrows(t1: real, t2: real)
    requires t1 <= t2
    ensures SpeedBonus(t1) <= SpeedBonus(t2)
  {
    assert t1 / 600.0 <= t2 / 600.0;
  }

  /** A new enemy's speed, `40 + draw * 35 + Math.min(90, timeMs / 600)`, where
      `draw` is the value `Math.random()` returned. */
  function EnemySpeed(draw: real, timeMs: real): (r: real)
    ensures 0.0 <= draw < 1.0 && timeMs >= 0.0 ==> 40.0 <= r < 165.0
  {
    40.0 + draw * 35.0 + SpeedBonus(timeMs)
  }

  /** `randomSpawnPoint`, given the two `Math.random()` results it draws: the first
      picks an edge, the second a position along it. */
  function SpawnPoint(sideDraw: real, alongDraw: real): (p: Vec)
    ensures 0.0 <= sideDraw < 1.0 && 0.0 <= alongDraw < 1.0 ==>
              || (p.y == -SpawnOffset && 0.0 <= p.x < Width)
              || (p.x == Width + SpawnOffset && 0.0 <= p.y < Height)
              || (p.y == Height + SpawnOffset && 0.0 <= p.x < Width)
              || (p.x == -SpawnOffset && 0.0 <= p.y < Height)
    ensures p.x < 0.0 || p.x > Width || p.y < 0.0 || p.y > Height
  {
    var side := (sideDraw * 4.0).Floor;
    if side == 0 then Vec(alongDraw * Width, -SpawnOffset)
    else if side == 1 then Vec(Width + SpawnOffset, alongDraw * Height)
    else if side == 2 then Vec(alongDraw * Width, Height + SpawnOffset)
    else Vec(-SpawnOffset, alongDraw * Height)
  }

  /** The edge `SpawnPoint` picks is the quarter of [0, 1) the first draw falls in. */
  lemma SpawnEdgeByQuarter(sideDraw: real, alongDraw: real)
    requires 0.0 <= sideDraw < 1.0
    ensures sideDraw < 0.25 ==> SpawnPoint(sideDraw, alongDraw).y == -SpawnOffset
    ensures 0.25 <= sideDraw < 0.5 ==> SpawnPoint(sideDraw, alongDraw).x == Width + SpawnOffset
    ensures 0.5 <= sideDraw < 0.75 ==> SpawnPoint(sideDraw, alongDraw).y == Height + SpawnOffset
    ensures 0.75 <= sideDraw ==> SpawnPoint(sideDraw, alongDraw).x == -SpawnOffset
  {
  }
}

=== FILE: checkin.dfy ===
/** The check-in transaction's follow-up: polling the wallet for the status of a
    sent call batch, and pulling the transaction hash out of the final status. */
module Checkin {
  import opened Wrappers
  import opened Json

  /** At most this many status requests are made. */
  const MaxPolls: nat := 15
  /** `wallet_getCallsStatus` codes: still pending, and confirmed. */
  const PendingCode: real := 100.0
  const ConfirmedCode: real := 200.0

  /** What one `wallet_getCallsStatus` request came back with: a JSON result, or
      a rejected promise. */
  datatype Reply = Resolved(v: Json) | Rejected

  /** How polling ended: the status object once confirmed; the failing status
      code (absent when the reply had none); the provider's own error; or
      fifteen pending replies. `attempts` counts the requests made. */
  datatype PollOutcome =
    | Confirmed(result: Json, attempts: nat)
    | Failed(code: Option<Json>, attempts: nat)
    | ProviderError(attempts: nat)
    | TimedOut

  /** `statusResult?.status`. */
  function StatusCode(v: Json): Option<Json> {
    Member(Some(v), "status")
  }

  /** `code === 100`. */
  predicate Pending(rep: Reply) {
    rep.Resolved? && StatusCode(rep.v) == Some(JNum(PendingCode))
  }

  /** How a reply that is not pending ends the polling. */
  function Settle(rep: Reply, attempts: nat): (r: PollOutcome)
    requires !Pending(rep)
    ensures !r.TimedOut? && r.attempts == attempts
    ensures r.Confirmed? <==> rep.Resolved? && StatusCode(rep.v) == Some(JNum(ConfirmedCode))
    ensures r.Confirmed? ==> r.result == rep.v
    ensures r.ProviderError? <==> rep.Rejected?
    ensures r.Failed? ==> r.code == StatusCode(rep.v) && r.code != Some(JNum(PendingCode))
  {
    match rep
    case Rejected => ProviderError(attempts)
    case Resolved(v) =>
      var code := StatusCode(v);
      if code == Some(JNum(ConfirmedCode)) then Confirmed(v, attempts) else Failed(code, attempts)
  }

  /** `pollBatchStatus`: `replies(i)` is what the `i`-th request (from 0) returns.
      Pending replies are skipped; the first other reply settles the outcome; after
      fifteen pending replies polling gives up. */
  method PollBatchStatus(replies: nat -> Reply) returns (r: PollOutcome)
    ensures r.TimedOut? <==> forall i :: 0 <= i < MaxPolls ==> Pending(replies(i))
    ensures !r.TimedOut? ==>
              && 1 <= r.attempts <= MaxPolls
              && (forall i :: 0 <= i < r.attempts - 1 ==> Pending(replies(i)))
              && !Pending(replies(r.attempts - 1))
              && r == Settle(replies(r.attempts - 1), r.attempts)
  {
    var i := 0;
    while i < MaxPolls
      invariant 0 <= i <= MaxPolls
      invariant forall k :: 0 <= k < i ==> Pending(replies(k))
    {
      var rep := replies(i);
      if !Pending(rep) {
        return Settle(rep, i + 1);
      }
      i := i + 1;
    }
    return TimedOut;
  }

  /** `statusResult?.receipts?.[0]?.transactionHash`. */
  function ReceiptHash(v: Option<Json>): Option<Json> {
    Member(Index0(Member(v, "receipts")), "transactionHash")
  }

  /** `statusResult?.transactions?.[0]?.hash`. */
  function TransactionHash(v: Option<Json>): Option<Json> {
    Member(Index0(Member(v, "transactions")), "hash")
  }

  predicate IsString(v: Option<Json>) {
    v.Some? && v.value.JStr?
  }

  /** `extractTxHash`: the first receipt's transaction hash if it is a string,
      else the first transaction's hash if that is a string, else nothing. */
  function ExtractTxHash(v: Option<Json>): (r: Option<string>)
    ensures r.Some? ==> v.Some? && v.value.JObj?
    ensures IsString(ReceiptHash(v)) ==> r == Some(ReceiptHash(v).value.s)
    ensures !IsString(ReceiptHash(v)) && IsString(TransactionHash(v)) ==> r == Some(TransactionHash(v).value.s)
    ensures !IsString(ReceiptHash(v)) && !IsString(TransactionHash(v)) ==> r.None?
  {
    if !Truthy(v) then None
    else
      var a := ReceiptHash(v);
      if a.Some? && a.value.JStr? then Some(a.value.s)
      else
        var b := TransactionHash(v);
        if b.Some? && b.value.JStr? then Some(b.value.s)
        else None
  }
}

=== FILE: combat.dfy ===
/** Enemies, bullets and what happens to them in one tick: pursuit, bullet
    flight and culling, auto-fire at the nearest enemy, and bullet-vs-enemy
    removal with kill bookkeeping. */
module Combat {
  import opened Wrappers
  import opened Arena
  import Seqs

  datatype Enemy = Enemy(id: int, x: real, y: real, r: real, speed: real)
  datatype Bullet = Bullet(id: int, x: real, y: real, vx: real, vy: real, life: real)

  /** Pixels per second. */
  const BulletSpeed: real := 280.0
  /** Seconds a bullet lives. */
  const BulletLife: real := 1.2
  /** Seconds between shots. */
  const ShootCooldown: real := 0.33
  /** How far outside the arena a bullet may fly before it is dropped. */
  const CullMargin: real := 20.0

  function EnemyId(e: Enemy): int { e.id }
  function BulletId(b: Bullet): int { b.id }

  /** `Math.hypot(tx, ty) || 1`: a zero length becomes 1. */
  function NonZero(l: real): (r: real)
    ensures r != 0.0
    ensures l != 0.0 ==> r == l
  {
    if l == 0.0 then 1.0 else l
  }

  /** One enemy steps toward the player at its own speed; `hypot` is the host's
      `Math.hypot`. */
  function Pursue(e: Enemy, p: Vec, dt: real, hypot: (real, real) -> real): (r: Enemy)
    ensures r.id == e.id && r.r == e.r && r.speed == e.speed
    ensures (r.x - e.x) * (p.y - e.y) == (r.y - e.y) * (p.x - e.x)
  {
    var tx, ty := p.x - e.x, p.y - e.y;
    var l := NonZero(hypot(tx, ty));
    var k := e.speed * dt / l;
    assert (tx * k) * ty == (ty * k) * tx;
    e.(x := e.x + tx * k, y := e.y + ty * k)
  }

  /** With a non-negative length from `hypot`, a non-negative step and speed, the
      step goes toward the player on each axis, never away. */
  lemma PursueHeadsForPlayer(e: Enemy, p: Vec, dt: real, hypot: (real, real) -> real)
    requires hypot(p.x - e.x, p.y - e.y) >= 0.0 && dt >= 0.0 && e.speed >= 0.0
    ensures var r := Pursue(e, p, dt, hypot);
            (r.x - e.x) * (p.x - e.x) >= 0.0 && (r.y - e.y) * (p.y - e.y) >= 0.0
  {
    var tx, ty := p.x - e.x, p.y - e.y;
    var l := NonZero(hypot(tx, ty));
    var k := e.speed * dt / l;
    NonNegativeProduct(e.speed, dt);
    NonNegativeQuotient(e.speed * dt, l);
    var r := Pursue(e, p, dt, hypot);
    assert r.x - e.x == tx * k && r.y - e.y == ty * k;
    ScaledSquare(tx, k);
    ScaledSquare(ty, k);
  }

  lemma NonNegativeProduct(a: real, b: real)
    requires a >= 0.0 && b >= 0.0
    ensures a * b >= 0.0
  {
  }

  lemma NonNegativeQuotient(a: real, b: real)
    requires a >= 0.0 && b > 0.0
    ensures a / b >= 0.0
  {
  }

  /** `(t * k) * t` is `k` times a square, so it has the sign of `k`. */
  lemma ScaledSquare(t: real, k: real)
    requires k >= 0.0
    ensures (t * k) * t >= 0.0
  {
    assert (t * k) * t == k * (t * t);
    NonNegativeProduct(k, t * t);
  }

  /** Every enemy pursues; identities, sizes and speeds are kept. */
  function PursueAll(es: seq<Enemy>, p: Vec, dt: real, hypot: (real, real) -> real): (r: seq<Enemy>)
    ensures |r| == |es|
    ensures forall i :: 0 <= i < |es| ==> r[i] == Pursue(es[i], p, dt, hypot)
  {
    seq(|es|, i requires 0 <= i < |es| => Pursue(es[i], p, dt, hypot))
  }

  /** One bullet flies for `dt` seconds and ages by as much. */
  function Advance(b: Bullet, dt: real): Bullet {
    b.(x := b.x + b.vx * dt, y := b.y + b.vy * dt, life := b.life - dt)
  }

  function AdvanceAll(bs: seq<Bullet>, dt: real): (r: seq<Bullet>)
    ensures |r| == |bs|
    ensures forall i :: 0 <= i < |bs| ==> r[i] == Advance(bs[i], dt)
  {
    seq(|bs|, i requires 0 <= i < |bs| => Advance(bs[i], dt))
  }

  /** The culling filter: still alive and strictly inside the arena widened by 20. */
  predicate InFlight(b: Bullet) {
    && b.life > 0.0
    && -CullMargin < b.x < Width + CullMargin
    && -CullMargin < b.y < Height + CullMargin
  }

  /** Bullet integration and culling: the survivors are exactly the advanced
      bullets still in flight, in their original order. */
  function StepBullets(bs: seq<Bullet>, dt: real): (r: seq<Bullet>)
    ensures forall i :: 0 <= i < |r| ==> InFlight(r[i])
    ensures Seqs.IsSubsequence(r, AdvanceAll(bs, dt))
    ensures forall i :: 0 <= i < |bs| && InFlight(Advance(bs[i], dt)) ==> Advance(bs[i], dt) in r
  {
    var moved := AdvanceAll(bs, dt);
    Seqs.FilterIsSubsequence(moved, InFlight);
    Seqs.Filter(moved, InFlight)
  }

  /** `dist(b, e) < BULLET_RADIUS + e.r`, compared on squares. */
  predicate Collides(b: Bullet, e: Enemy) {
    BulletRadius + e.r > 0.0
    && DistSq(b.x, b.y, e.x, e.y) < (BulletRadius + e.r) * (BulletRadius + e.r)
  }

  /** The ids of the enemies `b` touches. */
  ghost function HitIds(b: Bullet, es: seq<Enemy>): set<int> {
    set e | e in es && Collides(b, e) :: e.id
  }

  /** Some bullet of `bs` touches `e`. */
  ghost predicate Shot(bs: seq<Bullet>, e: Enemy) {
    exists i :: 0 <= i < |bs| && Collides(bs[i], e)
  }

  /** The ids of the enemies some bullet touches. */
  ghost function ShotIds(bs: seq<Bullet>, es: seq<Enemy>): set<int> {
    set e | e in es && Shot(bs, e) :: e.id
  }

  /** `removedEnemies`, `removedBullets` and the kills added. */
  datatype Hits = Hits(enemies: set<int>, bullets: set<int>, kills: int)

  const NoHits: Hits := Hits({}, {}, 0)

  lemma HitIdsSplit(b: Bullet, es: seq<Enemy>)
    requires es != []
    ensures HitIds(b, es) == (if Collides(b, es[0]) then {es[0].id} else {}) + HitIds(b, es[1..])
  {
    assert es == [es[0]] + es[1..];
  }

  /** What one step of the inner loop does to the accumulated hits. */
  function Visit(b: Bullet, e: Enemy, acc: Hits): Hits {
    if e.id !in acc.enemies && Collides(b, e)
    then Hits(acc.enemies + {e.id}, acc.bullets + {b.id}, acc.kills + 1)
    else acc
  }

  /** One step of the inner loop keeps the loop's outcome: the removed ids and
      whether the bullet is spent. */
  lemma VisitKeepsRemoved(b: Bullet, es: seq<Enemy>, acc: Hits)
    requires es != []
    ensures var acc' := Visit(b, es[0], acc);
            && acc'.enemies + HitIds(b, es[1..]) == acc.enemies + HitIds(b, es)
            && (HitIds(b, es[1..]) <= acc'.enemies ==> acc'.bullets == (if HitIds(b, es) <= acc.enemies then acc.bullets else acc.bullets + {b.id}))
            && (!(HitIds(b, es[1..]) <= acc'.enemies) ==> acc'.bullets + {b.id} == acc.bullets + {b.id} && !(HitIds(b, es) <= acc.enemies))
  {
    HitIdsSplit(b, es);
  }

  /** One step of the inner loop keeps the loop's kill count. */
  lemma VisitKeepsKills(b: Bullet, es: seq<Enemy>, acc: Hits)
    requires es != []
    ensures var acc' := Visit(b, es[0], acc);
            acc'.kills + |HitIds(b, es[1..]) - acc'.enemies| == acc.kills + |HitIds(b, es) - acc.enemies|
  {
    var e := es[0];
    var acc' := Visit(b, e, acc);
    var rest := HitIds(b, es[1..]);
    HitIdsSplit(b, es);
    if e.id !in acc.enemies && Collides(b, e) {
      assert HitIds(b, es) - acc.enemies == {e.id} + (rest - acc'.enemies);
      assert e.id !in rest - acc'.enemies;
    } else {
      assert HitIds(b, es) - acc.enemies == rest - acc.enemies;
    }
  }

  /** The inner loop of the collision pass for one bullet. */
  function SweepEnemies(b: Bullet, es: seq<Enemy>, acc: Hits): Hits
    decreases |es|
  {
    if es == [] then acc else SweepEnemies(b, es[1..], Visit(b, es[0], acc))
  }

  /** The outer loop of the collision pass: every bullet in order runs the inner loop. */
  function SweepBullets(bs: seq<Bullet>, es: seq<Enemy>, acc: Hits): Hits
    decreases |bs|
  {
    if bs == [] then acc else SweepBullets(bs[1..], es, SweepEnemies(bs[0], es, acc))
  }

  /** For one bullet, each enemy not yet removed that it touches is removed and
      counted once; the bullet is spent exactly when it removed something. */
  lemma {:induction false} SweepEnemiesOutcome(b: Bullet, es: seq<Enemy>, acc: Hits)
    ensures var r := SweepEnemies(b, es, acc);
            && r.enemies == acc.enemies + HitIds(b, es)
            && r.bullets == (if HitIds(b, es) <= acc.enemies then acc.bullets else acc.bullets + {b.id})
            && r.kills == acc.kills + |HitIds(b, es) - acc.enemies|
    decreases |es|
  {
    if es != [] {
      VisitKeepsRemoved(b, es, acc);
      VisitKeepsKills(b, es, acc);
      SweepEnemiesOutcome(b, es[1..], Visit(b, es[0], acc));
    }
  }

  /** The whole pass removes exactly the enemies some bullet touches and counts
      one kill per removed id. */
  lemma {:induction false} SweepBulletsOutcome(bs: seq<Bullet>, es: seq<Enemy>, acc: Hits)
    ensures SweepBullets(bs, es, acc).enemies == acc.enemies + ShotIds(bs, es)
    ensures SweepBullets(bs, es, acc).kills == acc.kills + |SweepBullets(bs, es, acc).enemies - acc.enemies|
    decreases |bs|
  {
    if bs != [] {
      var acc' := SweepEnemies(bs[0], es, acc);
      SweepEnemiesOutcome(bs[0], es, acc);
      ShotIdsSplit(bs, es);
      SweepBulletsOutcome(bs[1..], es, acc');
      var r := SweepBullets(bs[1..], es, acc');
      assert acc'.enemies - acc.enemies == HitIds(bs[0], es) - acc.enemies;
      CardSplit(acc.enemies, acc'.enemies, r.enemies);
    }
  }

  /** Growing a set in two steps adds the two steps' new elements. */
  lemma CardSplit(a: set<int>, b: set<int>, c: set<int>)
    requires a <= b <= c
    ensures |c - a| == |b - a| + |c - b|
  {
    assert c - a == (b - a) + (c - b);
    assert (b - a) !! (c - b);
  }

  /** The pass spends only bullets of `bs`, and only ones that touch some enemy. */
  lemma {:induction false} SweepBulletsSpends(bs: seq<Bullet>, es: seq<Enemy>, acc: Hits)
    ensures acc.bullets <= SweepBullets(bs, es, acc).bullets
    ensures forall id :: id in SweepBullets(bs, es, acc).bullets - acc.bullets ==>
              exists i :: 0 <= i < |bs| && bs[i].id == id && HitIds(bs[i], es) != {}
    decreases |bs|
  {
    if bs != [] {
      var acc' := SweepEnemies(bs[0], es, acc);
      SweepEnemiesOutcome(bs[0], es, acc);
      SweepBulletsSpends(bs[1..], es, acc');
      var r := SweepBullets(bs[1..], es, acc');
      forall id | id in r.bullets - acc.bullets
        ensures exists i :: 0 <= i < |bs| && bs[i].id == id && HitIds(bs[i], es) != {}
      {
        if id in r.bullets - acc'.bullets {
          var i :| 0 <= i < |bs[1..]| && bs[1..][i].id == id && HitIds(bs[1..][i], es) != {};
          assert bs[i + 1] == bs[1..][i];
        } else {
          assert bs[0].id == id && HitIds(bs[0], es) != {};
        }
      }
    }
  }

  /** A pass that removes no enemy spends no bullet. */
  lemma {:induction false} NoRemovalNoSpending(bs: seq<Bullet>, es: seq<Enemy>, acc: Hits)
    ensures SweepBullets(bs, es, acc).enemies == acc.enemies ==> SweepBullets(bs, es, acc).bullets == acc.bullets
    decreases |bs|
  {
    if bs != [] {
      var acc' := SweepEnemies(bs[0], es, acc);
      SweepEnemiesOutcome(bs[0], es, acc);
      SweepBulletsOutcome(bs[1..], es, acc');
      NoRemovalNoSpending(bs[1..], es, acc');
    }
  }

  lemma ShotIdsSplit(bs: seq<Bullet>, es: seq<Enemy>)
    requires bs != []
    ensures ShotIds(bs, es) == HitIds(bs[0], es) + ShotIds(bs[1..], es)
  {
    forall e | e in es && Shot(bs, e) ensures e.id in HitIds(bs[0], es) + ShotIds(bs[1..], es) {
      var i :| 0 <= i < |bs| && Collides(bs[i], e);
      if i > 0 {
        assert bs[1..][i - 1] == bs[i];
      }
    }
    forall e | e in es && Shot(bs[1..], e) ensures Shot(bs, e) {
      var i :| 0 <= i < |bs[1..]| && Collides(bs[1..][i], e);
      assert bs[i + 1] == bs[1..][i];
    }
  }

  /** The collision loops as written: for each bullet, for each enemy not yet
      removed, a touch removes the enemy and the bullet and counts a kill. */
  method ResolveHits(bullets: seq<Bullet>, enemies: seq<Enemy>) returns (hits: Hits)
    ensures hits == SweepBullets(bullets, enemies, NoHits)
  {
    var removedEnemies: set<int> := {};
    var removedBullets: set<int> := {};
    var kills := 0;
    var i := 0;
    while i < |bullets|
      invariant 0 <= i <= |bullets|
      invariant SweepBullets(bullets[i..], enemies, Hits(removedEnemies, removedBullets, kills))
                == SweepBullets(bullets, enemies, NoHits)
    {
      var b := bullets[i];
      ghost var before := Hits(removedEnemies, removedBullets, kills);
      var j := 0;
      while j < |enemies|
        invariant 0 <= j <= |enemies|
        invariant SweepEnemies(b, enemies[j..], Hits(removedEnemies, removedBullets, kills))
                  == SweepEnemies(b, enemies, before)
      {
        var e := enemies[j];
        assert enemies[j..][1..] == enemies[j + 1..];
        assert Visit(b, e, Hits(removedEnemies, removedBullets, kills)) ==
               if e.id !in removedEnemies && Collides(b, e)
               then Hits(removedEnemies + {e.id}, removedBullets + {b.id}, kills + 1)
               else Hits(removedEnemies, removedBullets, kills);
        if e.id !in removedEnemies && Collides(b, e) {
          removedEnemies := removedEnemies + {e.id};
          removedBullets := removedBullets + {b.id};
          kills := kills + 1;
        }
        j := j + 1;
      }
      assert bullets[i..][1..] == bullets[i + 1..];
      i := i + 1;
    }
    hits := Hits(removedEnemies, removedBullets, kills);
  }

  /** The filter `(e) => !removedEnemies.has(e.id)`. */
  function EnemyKept(removed: set<int>): Enemy -> bool {
    (e: Enemy) => e.id !in removed
  }

  /** The filter `(b) => !removedBullets.has(b.id)`. */
  function BulletKept(removed: set<int>): Bullet -> bool {
    (b: Bullet) => b.id !in removed
  }

  /** The enemies left after the pass: those whose id was not removed. */
  function Survivors(es: seq<Enemy>, h: Hits): seq<Enemy> {
    if |h.enemies| > 0 then Seqs.Filter(es, EnemyKept(h.enemies)) else es
  }

  /** The bullets left after the pass: those whose id was not removed. */
  function Unspent(bs: seq<Bullet>, h: Hits): seq<Bullet> {
    if |h.enemies| > 0 then Seqs.Filter(bs, BulletKept(h.bullets)) else bs
  }

  /** With distinct enemy ids, the pass removes exactly the enemies some bullet
      touches and counts one kill per removed enemy. */
  lemma RemovedExactlyShot(bs: seq<Bullet>, es: seq<Enemy>)
    requires Seqs.UniqueBy(es, EnemyId)
    ensures var h := SweepBullets(bs, es, NoHits);
            && h.kills == |h.enemies|
            && (forall e :: e in es ==> (e.id in h.enemies <==> Shot(bs, e)))
  {
    var h := SweepBullets(bs, es, NoHits);
    SweepBulletsOutcome(bs, es, NoHits);
    forall e | e in es && e.id in h.enemies ensures Shot(bs, e) {
      var e' :| e' in es && Shot(bs, e') && e'.id == e.id;
      var i :| 0 <= i < |es| && es[i] == e;
      var j :| 0 <= j < |es| && es[j] == e';
      assert EnemyId(es[i]) == EnemyId(es[j]);
      assert i == j;
    }
  }

  /** With distinct enemy ids, the kills the pass adds equal the number of
      enemies that disappear. */
  lemma SurvivorsCount(bs: seq<Bullet>, es: seq<Enemy>)
    requires Seqs.UniqueBy(es, EnemyId)
    ensures var h := SweepBullets(bs, es, NoHits);
            |Survivors(es, h)| == |es| - h.kills
  {
    var h := SweepBullets(bs, es, NoHits);
    RemovedExactlyShot(bs, es);
    if |h.enemies| > 0 {
      var keep := EnemyKept(h.enemies);
      Seqs.FilterOutKeysLength(es, EnemyId, h.enemies, keep);
      Seqs.KeySetMembers(es, EnemyId);
      assert h.enemies * Seqs.KeySet(es, EnemyId) == h.enemies by {
        forall id | id in h.enemies ensures id in Seqs.KeySet(es, EnemyId) {
          SweepBulletsOutcome(bs, es, NoHits);
          var e :| e in es && Shot(bs, e) && e.id == id;
        }
      }
    }
  }

  /** With distinct enemy ids, the survivors keep their order and are exactly the
      enemies no bullet touches. */
  lemma SurvivorsAreUnshot(bs: seq<Bullet>, es: seq<Enemy>)
    requires Seqs.UniqueBy(es, EnemyId)
    ensures var h := SweepBullets(bs, es, NoHits);
            && Seqs.IsSubsequence(Survivors(es, h), es)
            && (forall e :: e in Survivors(es, h) ==> !Shot(bs, e))
            && (forall e :: e in es && !Shot(bs, e) ==> e in Survivors(es, h))
  {
    var h := SweepBullets(bs, es, NoHits);
    RemovedExactlyShot(bs, es);
    if |h.enemies| > 0 {
      Seqs.FilterIsSubsequence(es, EnemyKept(h.enemies));
    } else {
      SubsequenceRefl(es);
    }
  }

  /** Collision bookkeeping: with distinct enemy ids, an enemy is removed exactly
      when some bullet touches it, each removed enemy counts one kill, the kills
      added equal the number of enemies that disappear, and the survivors keep
      their order. */
  lemma CollisionBookkeeping(bs: seq<Bullet>, es: seq<Enemy>)
    requires Seqs.UniqueBy(es, EnemyId)
    ensures var h := SweepBullets(bs, es, NoHits);
            && h.kills == |h.enemies|
            && (forall e :: e in es ==> (e.id in h.enemies <==> Shot(bs, e)))
            && |Survivors(es, h)| == |es| - h.kills
            && Seqs.IsSubsequence(Survivors(es, h), es)
            && (forall e :: e in Survivors(es, h) ==> !Shot(bs, e))
            && (forall e :: e in es && !Shot(bs, e) ==> e in Survivors(es, h))
  {
    RemovedExactlyShot(bs, es);
    SurvivorsCount(bs, es);
    SurvivorsAreUnshot(bs, es);
  }

  /** What the whole collision pass guarantees for any input: survivors keep
      their order, kills never go down, and, once enemy ids are distinct, the
      kills added match the enemies dropped and exactly the touched enemies go. */
  lemma PassOutcome(bs: seq<Bullet>, es: seq<Enemy>)
    ensures var h := SweepBullets(bs, es, NoHits);
            && Seqs.IsSubsequence(Survivors(es, h), es)
            && h.kills >= 0
            && (Seqs.UniqueBy(es, EnemyId) ==>
                  && h.kills == |es| - |Survivors(es, h)|
                  && forall e :: e in es ==> (e in Survivors(es, h) <==> !Shot(bs, e)))
  {
    var h := SweepBullets(bs, es, NoHits);
    SweepBulletsOutcome(bs, es, NoHits);
    if |h.enemies| > 0 {
      Seqs.FilterIsSubsequence(es, EnemyKept(h.enemies));
    } else {
      SubsequenceRefl(es);
    }
    if Seqs.UniqueBy(es, EnemyId) {
      CollisionBookkeeping(bs, es);
      forall e | e in es ensures e in Survivors(es, h) <==> !Shot(bs, e) {
        if e in Survivors(es, h) {
          Seqs.SubsequenceMembers(Survivors(es, h), es);
        }
      }
    }
  }

  /** The bullets left after the pass are, in order, exactly those not spent. */
  lemma SpentBulletsDropped(bs: seq<Bullet>, es: seq<Enemy>)
    ensures var h := SweepBullets(bs, es, NoHits);
            && Seqs.IsSubsequence(Unspent(bs, h), bs)
            && (forall b :: b in Unspent(bs, h) ==> b in bs && b.id !in h.bullets)
            && (forall b :: b in bs && b.id !in h.bullets ==> b in Unspent(bs, h))
  {
    var h := SweepBullets(bs, es, NoHits);
    if |h.enemies| > 0 {
      Seqs.FilterIsSubsequence(bs, BulletKept(h.bullets));
    } else {
      NoRemovalNoSpending(bs, es, NoHits);
      SubsequenceRefl(bs);
    }
  }

  lemma {:induction false} SubsequenceRefl<T>(s: seq<T>)
    ensures Seqs.IsSubsequence(s, s)
    decreases |s|
  {
    if s != [] {
      SubsequenceRefl(s[1..]);
    }
  }

  /** Index of the first enemy at minimum distance from `p`: the head of the
      stable sort by distance. */
  function Nearest(es: seq<Enemy>, p: Vec): (r: Option<nat>)
    ensures r.None? <==> es == []
    ensures r.Some? ==> r.value < |es|
    ensures r.Some? ==> forall j :: 0 <= j < |es| ==>
              DistSq(es[r.value].x, es[r.value].y, p.x, p.y) <= DistSq(es[j].x, es[j].y, p.x, p.y)
    ensures r.Some? ==> forall j :: 0 <= j < r.value ==>
              DistSq(es[j].x, es[j].y, p.x, p.y) > DistSq(es[r.value].x, es[r.value].y, p.x, p.y)
    decreases |es|
  {
    if es == [] then None
    else match Nearest(es[1..], p)
      case None => Some(0)
      case Some(k) =>
        assert es[1..][k] == es[k + 1];
        assert forall j :: 1 <= j < |es| ==> es[j] == es[1..][j - 1];
        if DistSq(es[0].x, es[0].y, p.x, p.y) <= DistSq(es[k + 1].x, es[k + 1].y, p.x, p.y)
        then Some(0) else Some(k + 1)
  }

  datatype FireResult = FireResult(cooldown: real, shot: Option<Bullet>, nextId: int)

  /** A bullet with id `id` leaving `p` at 280 px/s toward `t`, which it is
      aimed along. */
  function Aim(p: Vec, t: Enemy, id: int, hypot: (real, real) -> real): (b: Bullet)
    ensures b.id == id && b.x == p.x && b.y == p.y && b.life == BulletLife
    ensures b.vx * (t.y - p.y) == b.vy * (t.x - p.x)
  {
    var tx, ty := t.x - p.x, t.y - p.y;
    var c := BulletSpeed / NonZero(hypot(tx, ty));
    assert (tx * c) * ty == (ty * c) * tx;
    Bullet(id, p.x, p.y, tx * c, ty * c, BulletLife)
  }

  /** With a non-negative length from `hypot`, the bullet flies toward the target
      on each axis, and it moves unless the target sits on the player. */
  lemma AimHeadsForTarget(p: Vec, t: Enemy, id: int, hypot: (real, real) -> real)
    requires hypot(t.x - p.x, t.y - p.y) >= 0.0
    ensures var b := Aim(p, t, id, hypot);
            && b.vx * (t.x - p.x) >= 0.0 && b.vy * (t.y - p.y) >= 0.0
            && (t.x != p.x || t.y != p.y ==> b.vx != 0.0 || b.vy != 0.0)
  {
    var tx, ty := t.x - p.x, t.y - p.y;
    var c := BulletSpeed / NonZero(hypot(tx, ty));
    NonNegativeQuotient(BulletSpeed, NonZero(hypot(tx, ty)));
    assert c != 0.0;
    var b := Aim(p, t, id, hypot);
    assert b.vx == tx * c && b.vy == ty * c;
    ScaledSquare(tx, c);
    ScaledSquare(ty, c);
  }

  /** Auto-fire: the cooldown runs down by `dt`; when it reaches zero it is reset
      to 0.33 and, if any enemy exists, a bullet leaves the player toward the
      nearest one, taking the next id. */
  function AutoFire(cd: real, dt: real, es: seq<Enemy>, p: Vec, nextId: int, hypot: (real, real) -> real): (r: FireResult)
    ensures cd - dt > 0.0 ==> r == FireResult(cd - dt, None, nextId)
    ensures cd - dt <= 0.0 ==> r.cooldown == ShootCooldown
    ensures r.shot.Some? <==> cd - dt <= 0.0 && es != []
    ensures r.shot.None? ==> r.nextId == nextId
    ensures r.shot.Some? ==>
              && r.nextId == nextId + 1
              && Nearest(es, p).Some?
              && r.shot.value == Aim(p, es[Nearest(es, p).value], nextId, hypot)
  {
    var left := cd - dt;
    if left > 0.0 then FireResult(left, None, nextId)
    else match Nearest(es, p)
      case None => FireResult(ShootCooldown, None, nextId)
      case Some(k) => FireResult(ShootCooldown, Some(Aim(p, es[k], nextId, hypot)), nextId + 1)
  }
}

=== FILE: entries.dfy ===
/** A leaderboard entry and the per-submission merge of a new score into it. */
module Entries {
  import opened Wrappers

  /** `LeaderboardEntry`: one record per normalised address. */
  datatype Entry = Entry(address: string, bestScore: int, lastScore: int, totalRuns: int, updatedAt: int)

  /** `Math.max(0, Math.floor(score))` on a finite JSON number: the whole part of
      the score, with negative scores recorded as zero. */
  function SanitizeScore(score: real): (r: int)
    ensures r >= 0
    ensures score >= 0.0 ==> r as real <= score < (r + 1) as real
    ensures score < 0.0 ==> r == 0
  {
    var f := score.Floor;
    if f < 0 then 0 else f
  }

  /** The best score of the previous entry, zero when there is none (`prev?.bestScore ?? 0`). */
  function PrevBest(prev: Option<Entry>): int {
    match prev
    case Some(e) => e.bestScore
    case None => 0
  }

  /** The run count of the previous entry, zero when there is none. */
  function PrevRuns(prev: Option<Entry>): int {
    match prev
    case Some(e) => e.totalRuns
    case None => 0
  }

  /** The entry written for `address` after a run scoring `score` at time `now`. */
  function Merge(prev: Option<Entry>, address: string, score: int, now: int): (e: Entry)
    ensures e.address == address && e.updatedAt == now
    ensures e.lastScore == score
    ensures e.bestScore >= score && e.bestScore >= PrevBest(prev)
    ensures e.bestScore == score || e.bestScore == PrevBest(prev)
    ensures e.totalRuns == PrevRuns(prev) + 1
  {
    var best := if PrevBest(prev) >= score then PrevBest(prev) else score;
    Entry(address, best, score, PrevRuns(prev) + 1, now)
  }

  /** The invariant every stored entry keeps: scores are non-negative, the best
      score is at least the most recent one, and at least one run was recorded. */
  predicate Consistent(e: Entry) {
    0 <= e.lastScore <= e.bestScore && e.totalRuns >= 1
  }

  /** Merging a sanitised score into a consistent entry (or into nothing) yields a
      consistent entry whose best score has not gone down. */
  lemma MergeKeepsConsistent(prev: Option<Entry>, address: string, score: int, now: int)
    requires score >= 0
    requires prev.Some? ==> Consistent(prev.value)
    ensures Consistent(Merge(prev, address, score, now))
    ensures prev.Some? ==> Merge(prev, address, score, now).bestScore >= prev.value.bestScore
    ensures prev.Some? ==> Merge(prev, address, score, now).totalRuns > prev.value.totalRuns
  {
  }
}

=== FILE: game.dfy ===
/** The run state of the game page and one animation-frame tick: clock, movement,
    spawning, auto-fire, pursuit, bullet flight, collisions and the contact that
    ends the run; plus reset, start and stop. */
module Game {
  import opened Wrappers
  import opened Arena
  import opened Combat
  import Seqs

  /** The refs the frame loop reads and writes, plus the run flag and best run. */
  datatype State = State(
    running: bool,
    player: Vec,
    enemies: seq<Enemy>,
    bullets: seq<Bullet>,
    kills: int,
    time: real,      // milliseconds survived, unrounded
    nextId: int,     // shared id counter for enemies and bullets
    shootCd: real,
    spawnCd: real,
    bestRun: int)

  const Centre: Vec := Vec(Width / 2.0, Height / 2.0)

  /** The page as first rendered: no run yet, ids start at 1. */
  const Initial: State := State(false, Centre, [], [], 0, 0.0, 1, 0.0, 0.0, 0)

  /** The `timeMs` shown, `Math.floor(timeRef)`. */
  function TimeMs(g: State): int {
    g.time.Floor
  }

  /** The score shown for a state. */
  function ShownScore(g: State): int {
    Score(TimeMs(g), g.kills)
  }

  /** What every reachable state satisfies: the player is inside the arena, ids
      are distinct and already handed out, bullets are in flight, enemies have
      the enemy radius, and kills are not negative. */
  ghost predicate Inv(g: State) {
    && InArena(g.player)
    && Seqs.UniqueBy(g.enemies, EnemyId)
    && Seqs.UniqueBy(g.bullets, BulletId)
    && (forall i :: 0 <= i < |g.enemies| ==> g.enemies[i].id < g.nextId && g.enemies[i].r == EnemyRadius)
    && (forall i :: 0 <= i < |g.bullets| ==> g.bullets[i].id < g.nextId && InFlight(g.bullets[i]))
    && g.kills >= 0
  }

  /** `resetGame`: the player back in the centre, no enemies or bullets, kills,
      time and both cooldowns zero. The id counter, the run flag and the best run
      are not touched. */
  function Reset(g: State): (r: State)
    ensures Inv(r)
    ensures r.enemies == [] && r.bullets == [] && r.kills == 0 && ShownScore(r) == 0
    ensures r.player == Centre && r.time == 0.0 && r.shootCd == 0.0 && r.spawnCd == 0.0
    ensures r.running == g.running && r.nextId == g.nextId && r.bestRun == g.bestRun
  {
    g.(player := Centre, enemies := [], bullets := [], kills := 0, time := 0.0,
       shootCd := 0.0, spawnCd := 0.0)
  }

  /** `startGame`: reset, then run. */
  function Start(g: State): (r: State)
    ensures Inv(r) && r.running
    ensures r.enemies == [] && r.bullets == [] && r.kills == 0 && ShownScore(r) == 0
    ensures r.player == Centre && r.time == 0.0 && r.shootCd == 0.0 && r.spawnCd == 0.0
    ensures r.nextId == g.nextId && r.bestRun == g.bestRun
  {
    Reset(g).(running := true)
  }

  /** A reset forgets everything of the run before it: two states that agree on
      the run flag, the id counter and the best run reset to the same state. */
  lemma ResetForgetsTheRun(g1: State, g2: State)
    requires g1.running == g2.running && g1.nextId == g2.nextId && g1.bestRun == g2.bestRun
    ensures Reset(g1) == Reset(g2)
  {
  }

  /** The page as first rendered is idle, satisfies the invariant, shows a zero
      score, and its first run starts with id 1. */
  lemma InitialIsIdle()
    ensures Inv(Initial) && !Initial.running && ShownScore(Initial) == 0
    ensures Start(Initial).nextId == 1 && Start(Initial).bestRun == 0
  {
  }

  /** `stopGame`: the run ends and the best run becomes the larger of itself and
      `score`, the score the stopping closure last saw. Nothing else changes. */
  function Stop(g: State, score: int): (r: State)
    ensures !r.running
    ensures r.bestRun >= g.bestRun && r.bestRun >= score
    ensures r.bestRun == g.bestRun || r.bestRun == score
    ensures r.(running := g.running, bestRun := g.bestRun) == g
  {
    g.(running := false, bestRun := if g.bestRun < score then score else g.bestRun)
  }

  /** The three `Math.random()` results one spawn draws, in order: the edge, the
      position along it, and the speed spread. */
  datatype Draws = Draws(side: real, along: real, speed: real)

  predicate ValidDraws(d: Draws) {
    0.0 <= d.side < 1.0 && 0.0 <= d.along < 1.0 && 0.0 <= d.speed < 1.0
  }

  /** The clock advances by `dt` seconds and the player moves: the clock never
      runs back on a non-negative step, a player inside the arena stays inside,
      and the enemies, bullets, kills and ids are left alone. */
  function Begin(g: State, keys: Keys, dt: real): (r: State)
    ensures dt >= 0.0 ==> r.time >= g.time
    ensures InArena(g.player) ==> InArena(r.player)
    ensures r.enemies == g.enemies && r.bullets == g.bullets && r.kills == g.kills && r.nextId == g.nextId
  {
    g.(time := g.time + dt * 1000.0, player := Move(g.player, keys, dt))
  }

  /** The spawn step: the spawn cooldown runs down by `dt`; once it reaches zero
      one enemy is appended on an edge just outside the arena with the next id,
      and the cooldown restarts from the spawn interval at the current time. */
  function Spawn(g: State, dt: real, d: Draws): (r: State)
    ensures g.spawnCd - dt > 0.0 ==> r == g.(spawnCd := g.spawnCd - dt)
    ensures g.spawnCd - dt <= 0.0 ==>
              && |r.enemies| == |g.enemies| + 1
              && r.enemies[..|g.enemies|] == g.enemies
              && r.nextId == g.nextId + 1
              && r.spawnCd == SpawnInterval(g.time)
              && var e := r.enemies[|g.enemies|];
                 && e.id == g.nextId && e.r == EnemyRadius
                 && (e.x < 0.0 || e.x > Width || e.y < 0.0 || e.y > Height)
                 && (ValidDraws(d) && g.time >= 0.0 ==> 40.0 <= e.speed < 165.0)
                 && r == g.(enemies := r.enemies, nextId := r.nextId, spawnCd := r.spawnCd)
  {
    var cd := g.spawnCd - dt;
    if cd > 0.0 then g.(spawnCd := cd)
    else
      var p := SpawnPoint(d.side, d.along);
      var e := Enemy(g.nextId, p.x, p.y, EnemyRadius, EnemySpeed(d.speed, g.time));
      g.(enemies := g.enemies + [e], nextId := g.nextId + 1, spawnCd := SpawnInterval(g.time))
  }

  /** The fire step: `AutoFire` aimed from the player at the current enemies; a
      bullet fired is appended. Exactly when the cooldown runs out with an enemy
      present one bullet is added, with the next id, at the player, with the full
      life, and in flight when the player is inside the arena; the bullets
      already flying, the enemies, the player and the kills are left alone. */
  function Fire(g: State, dt: real, hypot: (real, real) -> real): (r: State)
    ensures |r.bullets| == |g.bullets| || |r.bullets| == |g.bullets| + 1
    ensures r.bullets[..|g.bullets|] == g.bullets
    ensures |r.bullets| == |g.bullets| + 1 <==> g.shootCd - dt <= 0.0 && g.enemies != []
    ensures |r.bullets| == |g.bullets| ==> r.nextId == g.nextId
    ensures |r.bullets| == |g.bullets| + 1 ==>
              var b := r.bullets[|g.bullets|];
              && r.nextId == g.nextId + 1 && b.id == g.nextId
              && b.x == g.player.x && b.y == g.player.y && b.life == BulletLife
              && (InArena(g.player) ==> InFlight(b))
    ensures r.enemies == g.enemies && r.player == g.player && r.kills == g.kills
  {
    var f := AutoFire(g.shootCd, dt, g.enemies, g.player, g.nextId, hypot);
    g.(bullets := g.bullets + (if f.shot.Some? then [f.shot.value] else []),
       nextId := f.nextId, shootCd := f.cooldown)
  }

  /** Enemies pursue the player; bullets fly and are culled. Every enemy stays,
      with its id, radius and speed; the bullets left are in flight, in their old
      order, and no more than before; the player, kills and ids are untouched. */
  function Fly(g: State, dt: real, hypot: (real, real) -> real): (r: State)
    ensures |r.enemies| == |g.enemies|
    ensures forall i :: 0 <= i < |g.enemies| ==>
              && r.enemies[i].id == g.enemies[i].id
              && r.enemies[i].r == g.enemies[i].r
              && r.enemies[i].speed == g.enemies[i].speed
    ensures forall i :: 0 <= i < |r.bullets| ==> InFlight(r.bullets[i])
    ensures Seqs.IsSubsequence(r.bullets, AdvanceAll(g.bullets, dt))
    ensures |r.bullets| <= |g.bullets|
    ensures r.player == g.player && r.kills == g.kills && r.nextId == g.nextId
  {
    Seqs.SubsequenceLength(StepBullets(g.bullets, dt), AdvanceAll(g.bullets, dt));
    g.(enemies := PursueAll(g.enemies, g.player, dt, hypot), bullets := StepBullets(g.bullets, dt))
  }

  /** The collision pass: touched enemies and the bullets that touched them are
      dropped and each removed enemy counts one kill. Survivors and remaining
      bullets keep their order and kills never go down; with distinct enemy ids
      an enemy survives exactly when no bullet touches it, and the kills added
      equal the enemies dropped. The player and ids are untouched. */
  function Collide(g: State): (r: State)
    ensures Seqs.IsSubsequence(r.enemies, g.enemies)
    ensures Seqs.IsSubsequence(r.bullets, g.bullets)
    ensures r.kills >= g.kills
    ensures Seqs.UniqueBy(g.enemies, EnemyId) ==>
              && r.kills - g.kills == |g.enemies| - |r.enemies|
              && forall e :: e in g.enemies ==> (e in r.enemies <==> !Shot(g.bullets, e))
    ensures r.player == g.player && r.nextId == g.nextId
  {
    var h := SweepBullets(g.bullets, g.enemies, NoHits);
    PassOutcome(g.bullets, g.enemies);
    SpentBulletsDropped(g.bullets, g.enemies);
    g.(enemies := Survivors(g.enemies, h), bullets := Unspent(g.bullets, h), kills := g.kills + h.kills)
  }

  /** `dist(e, player) < e.r + PLAYER_RADIUS`, compared on squares. */
  predicate Touches(e: Enemy, p: Vec) {
    e.r + PlayerRadius > 0.0
    && DistSq(e.x, e.y, p.x, p.y) < (e.r + PlayerRadius) * (e.r + PlayerRadius)
  }

  predicate AnyContact(es: seq<Enemy>, p: Vec) {
    exists i :: 0 <= i < |es| && Touches(es[i], p)
  }

  /** Everything a running tick does before the contact check. */
  function Advanced(g: State, keys: Keys, elapsedMs: real, d: Draws, hypot: (real, real) -> real): State {
    var dt := FrameDt(elapsedMs);
    Fly(Fire(Spawn(Begin(g, keys, dt), dt, d), dt, hypot), dt, hypot)
  }

  /** One animation frame, `elapsedMs` after the previous one. `d` holds the
      random draws a spawn would use and `hypot` is `Math.hypot`. `shownScore` is
      the score captured by the stopping closure of the frame loop that runs the
      tick, which can be the score of any earlier render. A stopped game does
      nothing; a running one ends exactly when, after moving, some enemy touches
      the player. */
  function Tick(g: State, keys: Keys, elapsedMs: real, d: Draws, shownScore: int,
                hypot: (real, real) -> real): (r: State)
    ensures !g.running ==> r == g
    ensures g.running ==> (r.running <==> !AnyContact(r.enemies, r.player))
    ensures g.running ==> r.player == Move(g.player, keys, FrameDt(elapsedMs))
    ensures g.running ==> r.time == g.time + FrameDt(elapsedMs) * 1000.0
    ensures r.nextId >= g.nextId
    ensures r.bestRun == (if g.running && !r.running && g.bestRun < shownScore then shownScore else g.bestRun)
  {
    if !g.running then g
    else
      var c := Collide(Advanced(g, keys, elapsedMs, d, hypot));
      if AnyContact(c.enemies, c.player) then Stop(c, shownScore) else c
  }

  lemma BeginKeepsInv(g: State, keys: Keys, dt: real)
    requires Inv(g)
    ensures Inv(Begin(g, keys, dt))
  {
  }

  lemma SpawnKeepsInv(g: State, dt: real, d: Draws)
    requires Inv(g)
    ensures Inv(Spawn(g, dt, d))
  {
    var r := Spawn(g, dt, d);
    if g.spawnCd - dt <= 0.0 {
      var n := |g.enemies|;
      forall i, j | 0 <= i < j < |r.enemies| ensures EnemyId(r.enemies[i]) != EnemyId(r.enemies[j]) {
        assert r.enemies[i] == g.enemies[i];
        if j < n {
          assert r.enemies[j] == g.enemies[j];
        }
      }
      forall i | 0 <= i < |r.enemies| ensures r.enemies[i].id < r.nextId && r.enemies[i].r == EnemyRadius {
        if i < n {
          assert r.enemies[i] == g.enemies[i];
        }
      }
    }
  }

  lemma FireKeepsInv(g: State, dt: real, hypot: (real, real) -> real)
    requires Inv(g)
    ensures Inv(Fire(g, dt, hypot))
  {
    var r := Fire(g, dt, hypot);
    var n := |g.bullets|;
    forall i, j | 0 <= i < j < |r.bullets| ensures BulletId(r.bullets[i]) != BulletId(r.bullets[j]) {
      assert r.bullets[i] == g.bullets[i];
      if j < n {
        assert r.bullets[j] == g.bullets[j];
      }
    }
    forall i | 0 <= i < |r.bullets| ensures r.bullets[i].id < r.nextId && InFlight(r.bullets[i]) {
      if i < n {
        assert r.bullets[i] == g.bullets[i];
      }
    }
  }

  lemma FlyKeepsInv(g: State, dt: real, hypot: (real, real) -> real)
    requires Inv(g)
    ensures Inv(Fly(g, dt, hypot))
  {
    var r := Fly(g, dt, hypot);
    var moved := AdvanceAll(g.bullets, dt);
    assert Seqs.UniqueBy(moved, BulletId) by {
      forall i, j | 0 <= i < j < |moved| ensures BulletId(moved[i]) != BulletId(moved[j]) {
        assert BulletId(g.bullets[i]) != BulletId(g.bullets[j]);
      }
    }
    Seqs.SubsequenceKeepsUnique(r.bullets, moved, BulletId);
    Seqs.SubsequenceMembers(r.bullets, moved);
    forall i | 0 <= i < |r.bullets| ensures r.bullets[i].id < r.nextId {
      var k :| 0 <= k < |moved| && moved[k] == r.bullets[i];
      assert moved[k].id == g.bullets[k].id;
    }
    forall i, j | 0 <= i < j < |r.enemies| ensures EnemyId(r.enemies[i]) != EnemyId(r.enemies[j]) {
      assert EnemyId(g.enemies[i]) != EnemyId(g.enemies[j]);
    }
  }

  lemma CollideKeepsInv(g: State)
    requires Inv(g)
    ensures Inv(Collide(g))
  {
    var r := Collide(g);
    var h := SweepBullets(g.bullets, g.enemies, NoHits);
    CollisionBookkeeping(g.bullets, g.enemies);
    Seqs.SubsequenceKeepsUnique(r.enemies, g.enemies, EnemyId);
    Seqs.SubsequenceMembers(r.enemies, g.enemies);
    if |h.enemies| > 0 {
      Seqs.FilterIsSubsequence(g.bullets, BulletKept(h.bullets));
      Seqs.SubsequenceKeepsUnique(r.bullets, g.bullets, BulletId);
    }
    forall i | 0 <= i < |r.enemies| ensures r.enemies[i].id < r.nextId && r.enemies[i].r == EnemyRadius {
      var k :| 0 <= k < |g.enemies| && g.enemies[k] == r.enemies[i];
    }
    forall i | 0 <= i < |r.bullets| ensures r.bullets[i].id < r.nextId && InFlight(r.bullets[i]) {
      assert r.bullets[i] in g.bullets;
      var k :| 0 <= k < |g.bullets| && g.bullets[k] == r.bullets[i];
    }
  }

  /** Every tick keeps the invariant. */
  lemma TickKeepsInv(g: State, keys: Keys, elapsedMs: real, d: Draws, shownScore: int,
                     hypot: (real, real) -> real)
    requires Inv(g)
    ensures Inv(Tick(g, keys, elapsedMs, d, shownScore, hypot))
  {
    if g.running {
      var dt := FrameDt(elapsedMs);
      var b := Begin(g, keys, dt);
      BeginKeepsInv(g, keys, dt);
      var s := Spawn(b, dt, d);
      SpawnKeepsInv(b, dt, d);
      var f := Fire(s, dt, hypot);
      FireKeepsInv(s, dt, hypot);
      FlyKeepsInv(f, dt, hypot);
      CollideKeepsInv(Fly(f, dt, hypot));
    }
  }

  /** Kill bookkeeping over a running tick: the enemies that remain keep their
      order, an enemy is removed exactly when some bullet in flight touches it,
      and the kill count grows by the number of enemies removed. */
  lemma TickCountsKills(g: State, keys: Keys, elapsedMs: real, d: Draws, shownScore: int,
                        hypot: (real, real) -> real)
    requires Inv(g) && g.running
    ensures var a := Advanced(g, keys, elapsedMs, d, hypot);
            var r := Tick(g, keys, elapsedMs, d, shownScore, hypot);
            && Seqs.IsSubsequence(r.enemies, a.enemies)
            && (forall e :: e in a.enemies ==> (e in r.enemies <==> !Shot(a.bullets, e)))
            && r.kills == g.kills + (|a.enemies| - |r.enemies|)
  {
    var dt := FrameDt(elapsedMs);
    var b := Begin(g, keys, dt);
    BeginKeepsInv(g, keys, dt);
    var s := Spawn(b, dt, d);
    SpawnKeepsInv(b, dt, d);
    var f := Fire(s, dt, hypot);
    FireKeepsInv(s, dt, hypot);
    FlyKeepsInv(f, dt, hypot);
    var a := Advanced(g, keys, elapsedMs, d, hypot);
    assert a == Fly(f, dt, hypot);
    CollisionBookkeeping(a.bullets, a.enemies);
  }

  /** While a run goes on and frames do not go back in time, the clock and the
      shown score never decrease. */
  lemma TickScoreGrows(g: State, keys: Keys, elapsedMs: real, d: Draws, shownScore: int,
                       hypot: (real, real) -> real)
    requires Inv(g) && elapsedMs >= 0.0
    ensures var r := Tick(g, keys, elapsedMs, d, shownScore, hypot);
            r.time >= g.time && ShownScore(r) >= ShownScore(g)
  {
    var r := Tick(g, keys, elapsedMs, d, shownScore, hypot);
    if g.running {
      TickCountsKills(g, keys, elapsedMs, d, shownScore, hypot);
      var a := Advanced(g, keys, elapsedMs, d, hypot);
      Seqs.SubsequenceLength(r.enemies, a.enemies);
      assert TimeMs(g) <= TimeMs(r);
      ScoreGrows(TimeMs(g), g.kills, TimeMs(r), r.kills);
    }
  }
}

=== FILE: json.dfy ===
/** JSON values as `JSON.parse` produces them, and the JavaScript operations
    the program applies to them: truthiness, property access and `?.[0]`. */
module Json {
  import opened Wrappers

  /** Numbers are finite reals; `JSON.parse` never yields NaN. */
  datatype Json =
    | JNull
    | JBool(b: bool)
    | JNum(n: real)
    | JStr(s: string)
    | JArr(items: seq<Json>)
    | JObj(fields: map<string, Json>)

  /** JavaScript truthiness of a value that may be `undefined` (None). */
  predicate Truthy(v: Option<Json>) {
    match v
    case None => false
    case Some(JNull) => false
    case Some(JBool(b)) => b
    case Some(JNum(n)) => n != 0.0
    case Some(JStr(s)) => s != ""
    case Some(JArr(_)) => true
    case Some(JObj(_)) => true
  }

  /** `v?.name` for the property names the program reads: only objects have them. */
  function Member(v: Option<Json>, name: string): Option<Json> {
    match v
    case Some(JObj(m)) => if name in m then Some(m[name]) else None
    case _ => None
  }

  /** `v?.[0]`: first array item, property "0" of an object, first character of a string. */
  function Index0(v: Option<Json>): Option<Json> {
    match v
    case Some(JArr(items)) => if |items| > 0 then Some(items[0]) else None
    case Some(JObj(m)) => if "0" in m then Some(m["0"]) else None
    case Some(JStr(s)) => if |s| > 0 then Some(JStr([s[0]])) else None
    case _ => None
  }
}

=== FILE: leaderboard.dfy ===
/** The leaderboard route: the process-wide store, the POST validation and
    merge path, and the GET lookup. */
module Leaderboard {
  import opened Wrappers
  import opened Json
  import opened Address
  import opened Entries
  import opened Ranking

  /** The in-process `Map<string, LeaderboardEntry>`: its keys in insertion
      order (the order `values()` yields) and the entry stored under each key. */
  datatype Store = Store(order: seq<string>, entries: map<string, Entry>)

  /** A JavaScript `Map`: each key once in the order, and exactly the keys of the map. */
  ghost predicate Valid(st: Store) {
    && (forall i, j :: 0 <= i < j < |st.order| ==> st.order[i] != st.order[j])
    && (forall k :: k in st.entries <==> k in st.order)
  }

  /** What every store the route ever builds satisfies: keys are valid addresses,
      each entry records its own key, and every entry is consistent. */
  ghost predicate WellFormed(st: Store) {
    && Valid(st)
    && forall k :: k in st.entries ==> IsValidAddress(k) && st.entries[k].address == k && Consistent(st.entries[k])
  }

  /** The store before any submission. */
  function EmptyStore(): (st: Store)
    ensures WellFormed(st) && st.entries == map[]
  {
    Store([], map[])
  }

  /** `store.get(key)`. */
  function Lookup(st: Store, key: string): (r: Option<Entry>)
    ensures r.Some? <==> key in st.entries
    ensures r.Some? ==> r.value == st.entries[key]
  {
    if key in st.entries then Some(st.entries[key]) else None
  }

  /** `store.set(key, e)`: a new key goes last, an existing key keeps its place. */
  function Put(st: Store, key: string, e: Entry): (r: Store)
    requires Valid(st)
    ensures Valid(r)
    ensures r.entries == st.entries[key := e]
    ensures key in st.entries ==> r.order == st.order
    ensures key !in st.entries ==> r.order == st.order + [key]
  {
    if key in st.entries then Store(st.order, st.entries[key := e])
    else Store(st.order + [key], st.entries[key := e])
  }

  /** `[...store.values()]`. */
  function Values(st: Store): (r: seq<Entry>)
    requires Valid(st)
    ensures |r| == |st.order|
    ensures forall i :: 0 <= i < |r| ==> r[i] == st.entries[st.order[i]]
  {
    seq(|st.order|, i requires 0 <= i < |st.order| => st.entries[st.order[i]])
  }

  /** The leaderboard both routes return: `getSorted().slice(0, 100)`. */
  function Board(st: Store): seq<Entry>
    requires Valid(st)
  {
    Top(Sort(Values(st)))
  }

  datatype PostError = MissingFields | InvalidAddressError | InvalidBody

  function Message(e: PostError): string {
    match e
    case MissingFields => "address and score are required"
    case InvalidAddressError => "invalid address"
    case InvalidBody => "invalid request body"
  }

  datatype PostReply = Rejected(error: PostError) | Accepted(profile: Entry, leaderboard: seq<Entry>)

  /** The HTTP status, the store afterwards, and the JSON reply. */
  datatype PostResult = PostResult(status: int, store: Store, reply: PostReply)

  /** The address field when it passes the `!body.address` test and is a string. */
  predicate HasAddressString(body: Json) {
    Member(Some(body), "address").Some? && Member(Some(body), "address").value.JStr?
  }

  function AddressString(body: Json): string
    requires HasAddressString(body)
  {
    Member(Some(body), "address").value.s
  }

  /** The `typeof body.score === "number"` test. */
  predicate HasNumberScore(body: Json) {
    Member(Some(body), "score").Some? && Member(Some(body), "score").value.JNum?
  }

  function ScoreNumber(body: Json): real
    requires HasNumberScore(body)
  {
    Member(Some(body), "score").value.n
  }

  /** `POST`: `body` is the parsed JSON body, None when `request.json()` throws;
      `now` is `Date.now()`. */
  function Post(st: Store, body: Option<Json>, now: int): (r: PostResult)
    requires Valid(st)
    ensures r.status == 400 || r.status == 200
    ensures r.status == 400 <==> r.reply.Rejected?
    ensures r.status == 400 ==> r.store == st
    ensures Valid(r.store)
    ensures r.reply.Accepted? ==> r.reply.leaderboard == Board(r.store)
  {
    match body
    case None => PostResult(400, st, Rejected(InvalidBody))
    case Some(JNull) => PostResult(400, st, Rejected(InvalidBody))
    case Some(v) =>
      if !Truthy(Member(body, "address")) || !HasNumberScore(v) then
        PostResult(400, st, Rejected(MissingFields))
      else if !HasAddressString(v) then
        PostResult(400, st, Rejected(InvalidBody))
      else
        var address := Normalize(AddressString(v));
        if !IsValidAddress(address) then
          PostResult(400, st, Rejected(InvalidAddressError))
        else
          var score := SanitizeScore(ScoreNumber(v));
          var updated := Merge(Lookup(st, address), address, score, now);
          var st' := Put(st, address, updated);
          PostResult(200, st', Accepted(updated, Board(st')))
  }

  /** The `profile` field of a GET reply: absent, `null`, or the entry. */
  datatype ProfileField = NoProfileField | NullProfile | Profile(entry: Entry)

  datatype GetReply = GetReply(leaderboard: seq<Entry>, profile: ProfileField)

  /** `GET`: `address` is the `address` query parameter, None when absent. */
  function Get(st: Store, address: Option<string>): (r: GetReply)
    requires Valid(st)
    ensures r.leaderboard == Board(st)
    ensures r.profile.NoProfileField? <==> address.None? || address.value == ""
    ensures r.profile.Profile? ==>
              address.Some? && Normalize(address.value) in st.entries
              && r.profile.entry == st.entries[Normalize(address.value)]
    ensures r.profile.NullProfile? ==> address.Some? && Normalize(address.value) !in st.entries
  {
    var board := Board(st);
    match address
    case None => GetReply(board, NoProfileField)
    case Some(a) =>
      if a == "" then GetReply(board, NoProfileField)
      else match Lookup(st, Normalize(a))
        case Some(e) => GetReply(board, Profile(e))
        case None => GetReply(board, NullProfile)
  }

  /** A body without a truthy `address` or without a numeric `score` is refused
      with "address and score are required", and the store is untouched. */
  lemma PostRequiresFields(st: Store, body: Json, now: int)
    requires Valid(st)
    requires body != JNull
    requires !Truthy(Member(Some(body), "address")) || !HasNumberScore(body)
    ensures Post(st, Some(body), now) == PostResult(400, st, Rejected(MissingFields))
    ensures Message(Post(st, Some(body), now).reply.error) == "address and score are required"
  {
  }

  /** A body that is not JSON, a `null` body, or a truthy address that is not a
      string beside a numeric score makes the handler throw; the catch refuses it
      with "invalid request body" and the store is untouched. */
  lemma PostRejectsMalformedBody(st: Store, body: Option<Json>, now: int)
    requires Valid(st)
    requires || body.None?
             || body == Some(JNull)
             || (body.Some? && Truthy(Member(body, "address")) && !HasAddressString(body.value)
                 && HasNumberScore(body.value))
    ensures Post(st, body, now) == PostResult(400, st, Rejected(InvalidBody))
    ensures Message(Post(st, body, now).reply.error) == "invalid request body"
  {
  }

  /** An address that is not `0x` and forty lowercase hex digits once trimmed and
      lowercased is refused with "invalid address"; no entry exists under it
      before or after. */
  lemma PostRejectsInvalidAddress(st: Store, body: Json, now: int)
    requires WellFormed(st)
    requires HasAddressString(body) && AddressString(body) != "" && HasNumberScore(body)
    requires !IsValidAddress(Normalize(AddressString(body)))
    ensures Post(st, Some(body), now) == PostResult(400, st, Rejected(InvalidAddressError))
    ensures Message(Post(st, Some(body), now).reply.error) == "invalid address"
    ensures Normalize(AddressString(body)) !in Post(st, Some(body), now).store.entries
  {
  }

  /** An accepted submission answers 200 and stores, under the normalised
      address, the previous entry there merged with the sanitised score; the
      reply carries that entry and the new board. */
  lemma PostAcceptsWritesMerge(st: Store, body: Json, now: int)
    requires WellFormed(st)
    requires HasAddressString(body) && AddressString(body) != "" && HasNumberScore(body)
    requires IsValidAddress(Normalize(AddressString(body)))
    ensures var a := Normalize(AddressString(body));
            var r := Post(st, Some(body), now);
            && r.status == 200
            && a in r.store.entries
            && r.store.entries[a] == Merge(Lookup(st, a), a, SanitizeScore(ScoreNumber(body)), now)
            && r.reply == Accepted(r.store.entries[a], Board(r.store))
  {
  }

  /** What the merged entry records: the score of this run as the last score, a
      best score no lower than this run or the previous best, one more run, and
      the request time; the store stays well formed. */
  lemma PostAccepts(st: Store, body: Json, now: int)
    requires WellFormed(st)
    requires HasAddressString(body) && AddressString(body) != "" && HasNumberScore(body)
    requires IsValidAddress(Normalize(AddressString(body)))
    ensures var a := Normalize(AddressString(body));
            var score := SanitizeScore(ScoreNumber(body));
            var r := Post(st, Some(body), now);
            && a in r.store.entries
            && r.store.entries[a].lastScore == score
            && r.store.entries[a].bestScore >= score
            && r.store.entries[a].bestScore >= PrevBest(Lookup(st, a))
            && r.store.entries[a].totalRuns == PrevRuns(Lookup(st, a)) + 1
            && r.store.entries[a].updatedAt == now
            && WellFormed(r.store)
  {
    var a := Normalize(AddressString(body));
    var prev := Lookup(st, a);
    var score := SanitizeScore(ScoreNumber(body));
    var r := Post(st, Some(body), now);
    PostAcceptsWritesMerge(st, body, now);
    PostKeepsOtherEntries(st, body, now);
    var e := Merge(prev, a, score, now);
    assert r.store.entries[a] == e;
    MergeKeepsConsistent(prev, a, score, now);
    forall k | k in r.store.entries
      ensures IsValidAddress(k) && r.store.entries[k].address == k && Consistent(r.store.entries[k])
    {
      if k != a {
        assert k in st.entries && r.store.entries[k] == st.entries[k];
      }
    }
  }

  /** An accepted submission adds or changes no key but its own and leaves every
      other entry as it was. */
  lemma PostKeepsOtherEntries(st: Store, body: Json, now: int)
    requires WellFormed(st)
    requires HasAddressString(body) && AddressString(body) != "" && HasNumberScore(body)
    requires IsValidAddress(Normalize(AddressString(body)))
    ensures var a := Normalize(AddressString(body));
            var r := Post(st, Some(body), now);
            && (forall k :: k != a ==> (k in r.store.entries <==> k in st.entries))
            && (forall k :: k != a && k in st.entries ==> r.store.entries[k] == st.entries[k])
  {
    PostAcceptsWritesMerge(st, body, now);
  }

  /** Whatever is posted, the store stays well formed, no entry disappears, and no
      entry's best score or run count goes down. */
  lemma PostNeverLosesProgress(st: Store, body: Option<Json>, now: int)
    requires WellFormed(st)
    ensures var r := Post(st, body, now);
            && WellFormed(r.store)
            && forall k :: k in st.entries ==>
                 && k in r.store.entries
                 && r.store.entries[k].bestScore >= st.entries[k].bestScore
                 && r.store.entries[k].totalRuns >= st.entries[k].totalRuns
  {
    var r := Post(st, body, now);
    if r.status == 200 {
      var v := body.value;
      assert HasAddressString(v) && HasNumberScore(v);
      PostAccepts(st, v, now);
      PostKeepsOtherEntries(st, v, now);
      var a := Normalize(AddressString(v));
      if a in st.entries {
        MergeKeepsConsistent(Lookup(st, a), a, SanitizeScore(ScoreNumber(v)), now);
      }
    }
  }

  /** The leaderboard in every reply is the store's ranking cut to its first
      hundred: ranked, drawn from the store, and nothing left out is ahead of
      anything shown. */
  lemma BoardIsTopOfStore(st: Store)
    requires Valid(st)
    ensures |Board(st)| == if |st.order| < TopSize then |st.order| else TopSize
    ensures Ranked(Board(st))
    ensures forall e :: e in Board(st) ==> e in st.entries.Values
    ensures forall e, t :: e in st.entries.Values && e !in Board(st) && t in Board(st) ==> !Outranks(e, t)
  {
    var vs := Values(st);
    SortPermutes(vs);
    assert |Sort(vs)| == |vs| by {
      assert |multiset(Sort(vs))| == |multiset(vs)|;
    }
    TopHoldsTheBest(vs);
    forall e | e in Board(st) ensures e in st.entries.Values {
      assert e in multiset(Board(st));
      assert e in multiset(vs);
      var i :| 0 <= i < |vs| && vs[i] == e;
      assert st.order[i] in st.entries;
    }
    forall e | e in st.entries.Values ensures e in vs {
      var k :| k in st.entries && st.entries[k] == e;
      var i :| 0 <= i < |st.order| && st.order[i] == k;
      assert vs[i] == e;
    }
  }

  /** A GET lookup does not depend on surrounding spaces or letter case: two
      spellings of one address find the same profile. */
  lemma GetIgnoresCaseAndPadding(st: Store, pre: string, a: string, b: string, post: string)
    requires Valid(st)
    requires AllSpace(pre, IsSpace) && AllSpace(post, IsSpace)
    requires Lower(a) == Lower(b) && b != ""
    ensures Get(st, Some(pre + a + post)).profile == Get(st, Some(b)).profile
  {
    NormalizeIgnoresCaseAndPadding(pre, a, b, post);
    assert |pre + a + post| == |pre| + |a| + |post|;
    assert |a| == |b|;
  }

  /** The store after a series of submissions, each a parsed body (None when
      the body is not JSON) and its request time. */
  function Replay(st: Store, posts: seq<(Option<Json>, int)>): (r: Store)
    requires Valid(st)
    ensures Valid(r)
    decreases |posts|
  {
    if posts == [] then st
    else Replay(Post(st, posts[0].0, posts[0].1).store, posts[1..])
  }

  /** Any series of submissions keeps a well-formed store well formed and never
      drops an entry. */
  lemma {:induction false} ReplayKeepsWellFormed(st: Store, posts: seq<(Option<Json>, int)>)
    requires WellFormed(st)
    ensures WellFormed(Replay(st, posts))
    ensures forall k :: k in st.entries ==> k in Replay(st, posts).entries
    decreases |posts|
  {
    if posts != [] {
      var next := Post(st, posts[0].0, posts[0].1).store;
      PostNeverLosesProgress(st, posts[0].0, posts[0].1);
      ReplayKeepsWellFormed(next, posts[1..]);
    }
  }

  /** Every store the route can reach from its empty start is well formed: each
      key is a valid lowercase address holding a consistent entry for itself. */
  lemma ReachableStoresWellFormed(posts: seq<(Option<Json>, int)>)
    ensures WellFormed(Replay(EmptyStore(), posts))
  {
    ReplayKeepsWellFormed(EmptyStore(), posts);
  }
}

=== FILE: ranking.dfy ===
/** `getSorted` and the top-100 slice: entries ordered by best score descending,
    ties broken by the most recent update, remaining ties kept in store order. */
module Ranking {
  import opened Entries
  import Seqs

  /** How many entries a leaderboard reply carries (`slice(0, 100)`). */
  const TopSize: nat := 100

  /** The comparator handed to `Array.prototype.sort`: negative when `a` goes first. */
  function Compare(a: Entry, b: Entry): int {
    if b.bestScore != a.bestScore then b.bestScore - a.bestScore else b.updatedAt - a.updatedAt
  }

  /** `a` is strictly ahead of `b`. */
  predicate Outranks(a: Entry, b: Entry) {
    a.bestScore > b.bestScore || (a.bestScore == b.bestScore && a.updatedAt > b.updatedAt)
  }

  /** `a` and `b` compare equal, so a stable sort keeps their input order. */
  predicate Tied(a: Entry, b: Entry) {
    a.bestScore == b.bestScore && a.updatedAt == b.updatedAt
  }

  /** The test "is tied with `k`", as one function value so that filters by it can be compared. */
  function TiedWith(k: Entry): Entry -> bool {
    e => Tied(e, k)
  }

  /** Descending by best score, then by update time. */
  ghost predicate Ranked(s: seq<Entry>) {
    forall i, j :: 0 <= i < j < |s| ==> !Outranks(s[j], s[i])
  }

  /** The comparator's sign is exactly the ranking order. */
  lemma CompareMeansRank(a: Entry, b: Entry)
    ensures Compare(a, b) < 0 <==> Outranks(a, b)
    ensures Compare(a, b) == 0 <==> Tied(a, b)
    ensures Compare(a, b) > 0 <==> Outranks(b, a)
  {
  }

  /** Inserts `x`, which came earlier in the input than every element of `s`,
      before the first element that does not outrank it. */
  function Insert(x: Entry, s: seq<Entry>): seq<Entry>
    decreases |s|
  {
    if s == [] then [x]
    else if Compare(s[0], x) < 0 then [s[0]] + Insert(x, s[1..])
    else [x] + s
  }

  /** A stable sort by `Compare`. */
  function Sort(s: seq<Entry>): seq<Entry>
    decreases |s|
  {
    if s == [] then [] else Insert(s[0], Sort(s[1..]))
  }

  /** `getSorted().slice(0, 100)`. */
  function Top(sorted: seq<Entry>): (r: seq<Entry>)
    ensures |r| == if |sorted| < TopSize then |sorted| else TopSize
    ensures r == sorted[..|r|]
  {
    if |sorted| <= TopSize then sorted else sorted[..TopSize]
  }

  lemma {:induction false} InsertPermutes(x: Entry, s: seq<Entry>)
    ensures multiset(Insert(x, s)) == multiset(s) + multiset{x}
    decreases |s|
  {
    if s != [] && Compare(s[0], x) < 0 {
      InsertPermutes(x, s[1..]);
      assert s == [s[0]] + s[1..];
    }
  }

  lemma {:induction false} InsertRanked(x: Entry, s: seq<Entry>)
    requires Ranked(s)
    ensures Ranked(Insert(x, s))
    decreases |s|
  {
    if s != [] {
      CompareMeansRank(s[0], x);
      if Compare(s[0], x) < 0 {
        var t := s[1..];
        assert Ranked(t);
        InsertRanked(x, t);
        InsertPermutes(x, t);
        var r := Insert(x, t);
        forall j | 0 <= j < |r| ensures !Outranks(r[j], s[0]) {
          var y := r[j];
          assert y in multiset(r);
          assert y == x || y in multiset(t);
          if y != x {
            var k :| 0 <= k < |t| && t[k] == y;
            assert s[k + 1] == y;
          }
        }
        RankedCons(s[0], r);
      } else {
        forall j | 0 <= j < |s| ensures !Outranks(s[j], x) {
          assert j == 0 || !Outranks(s[j], s[0]);
        }
        RankedCons(x, s);
      }
    }
  }

  /** A ranked sequence stays ranked under a head that nothing in it outranks. */
  lemma RankedCons(h: Entry, r: seq<Entry>)
    requires Ranked(r)
    requires forall j :: 0 <= j < |r| ==> !Outranks(r[j], h)
    ensures Ranked([h] + r)
  {
    forall i, j | 0 <= i < j < |[h] + r| ensures !Outranks(([h] + r)[j], ([h] + r)[i]) {
      assert ([h] + r)[j] == r[j - 1];
      if i > 0 {
        assert ([h] + r)[i] == r[i - 1];
      }
    }
  }

  /** The sort returns every entry of its input, each as often as it occurs. */
  lemma {:induction false} SortPermutes(s: seq<Entry>)
    ensures multiset(Sort(s)) == multiset(s)
    decreases |s|
  {
    if s != [] {
      SortPermutes(s[1..]);
      InsertPermutes(s[0], Sort(s[1..]));
      assert s == [s[0]] + s[1..];
    }
  }

  /** The sort's output is in ranking order. */
  lemma {:induction false} SortRanks(s: seq<Entry>)
    ensures Ranked(Sort(s))
    decreases |s|
  {
    if s != [] {
      SortRanks(s[1..]);
      InsertRanked(s[0], Sort(s[1..]));
    }
  }

  lemma {:induction false} InsertKeepsTiedOrder(x: Entry, s: seq<Entry>, k: Entry)
    ensures Seqs.Filter(Insert(x, s), TiedWith(k))
         == if Tied(x, k) then [x] + Seqs.Filter(s, TiedWith(k)) else Seqs.Filter(s, TiedWith(k))
    decreases |s|
  {
    if s != [] && Compare(s[0], x) < 0 {
      InsertKeepsTiedOrder(x, s[1..], k);
      CompareMeansRank(s[0], x);
      assert ([s[0]] + Insert(x, s[1..]))[1..] == Insert(x, s[1..]);
      assert Tied(x, k) ==> !Tied(s[0], k);
    } else if s != [] {
      assert ([x] + s)[1..] == s;
    } else {
      assert [x][1..] == [];
    }
  }

  /** Stability: the entries tied with any given entry appear in the output in
      the same order as in the input. */
  lemma {:induction false} SortIsStable(s: seq<Entry>, k: Entry)
    ensures Seqs.Filter(Sort(s), TiedWith(k)) == Seqs.Filter(s, TiedWith(k))
    decreases |s|
  {
    if s != [] {
      SortIsStable(s[1..], k);
      InsertKeepsTiedOrder(s[0], Sort(s[1..]), k);
    }
  }

  /** In a ranked list, nothing after a prefix is ahead of anything in it. */
  lemma PrefixIsAhead(sorted: seq<Entry>, n: nat)
    requires Ranked(sorted) && n <= |sorted|
    ensures forall e, t :: e in sorted && e !in sorted[..n] && t in sorted[..n] ==> !Outranks(e, t)
  {
    forall e, t | e in sorted && e !in sorted[..n] && t in sorted[..n] ensures !Outranks(e, t) {
      var j :| 0 <= j < |sorted| && sorted[j] == e;
      var i :| 0 <= i < n && sorted[..n][i] == t;
      assert j >= n by {
        forall m | 0 <= m < n ensures sorted[m] != e {
          assert sorted[m] == sorted[..n][m];
        }
      }
      assert sorted[i] == t;
    }
  }

  /** The top slice of the sorted store holds the best entries: it is ranked, it
      comes from the store, and whatever it leaves out is not ahead of anything it keeps. */
  lemma TopHoldsTheBest(s: seq<Entry>)
    ensures Ranked(Top(Sort(s)))
    ensures multiset(Top(Sort(s))) <= multiset(s)
    ensures forall e, t :: e in s && e !in Top(Sort(s)) && t in Top(Sort(s)) ==> !Outranks(e, t)
  {
    var sorted := Sort(s);
    var top := Top(sorted);
    SortRanks(s);
    SortPermutes(s);
    assert sorted == top + sorted[|top|..];
    PrefixIsAhead(sorted, |top|);
    forall e | e in s ensures e in sorted {
      assert e in multiset(s);
    }
  }
}

=== FILE: seqs.dfy ===
/** Order-preserving filtering, the subsequence relation, and key uniqueness:
    the sequence facts shared by the leaderboard and the game model. */
module Seqs {

  /** `Array.prototype.filter`: the elements satisfying `p`, in their original order. */
  function Filter<T(==)>(s: seq<T>, p: T -> bool): (r: seq<T>)
    ensures |r| <= |s|
    ensures forall i :: 0 <= i < |r| ==> p(r[i]) && r[i] in s
    ensures forall i :: 0 <= i < |s| && p(s[i]) ==> s[i] in r
  {
    if s == [] then []
    else if p(s[0]) then [s[0]] + Filter(s[1..], p)
    else Filter(s[1..], p)
  }

  /** `a` is obtained from `b` by deleting elements, keeping the order of the rest. */
  ghost predicate IsSubsequence<T>(a: seq<T>, b: seq<T>)
    decreases |b|
  {
    if b == [] then a == []
    else (a != [] && a[0] == b[0] && IsSubsequence(a[1..], b[1..])) || IsSubsequence(a, b[1..])
  }

  /** No two positions of `s` carry the same key. */
  ghost predicate UniqueBy<T>(s: seq<T>, key: T -> int) {
    forall i, j :: 0 <= i < j < |s| ==> key(s[i]) != key(s[j])
  }

  /** The keys occurring in `s`. */
  ghost function KeySet<T>(s: seq<T>, key: T -> int): set<int>
    decreases |s|
  {
    if s == [] then {} else {key(s[0])} + KeySet(s[1..], key)
  }

  lemma {:induction false} KeySetMembers<T>(s: seq<T>, key: T -> int)
    ensures forall i :: 0 <= i < |s| ==> key(s[i]) in KeySet(s, key)
    ensures forall k :: k in KeySet(s, key) ==> exists i :: 0 <= i < |s| && key(s[i]) == k
    decreases |s|
  {
    if s != [] {
      KeySetMembers(s[1..], key);
      forall i | 0 < i < |s| ensures key(s[i]) in KeySet(s, key) {
        assert s[i] == s[1..][i - 1];
      }
      forall k | k in KeySet(s[1..], key) ensures exists i :: 0 <= i < |s| && key(s[i]) == k {
        var i :| 0 <= i < |s[1..]| && key(s[1..][i]) == k;
        assert key(s[i + 1]) == k;
      }
    }
  }

  lemma UniqueTail<T>(s: seq<T>, key: T -> int)
    requires s != []
    requires UniqueBy(s, key)
    ensures UniqueBy(s[1..], key)
    ensures key(s[0]) !in KeySet(s[1..], key)
  {
    forall i, j | 0 <= i < j < |s[1..]| ensures key(s[1..][i]) != key(s[1..][j]) {
      assert s[1..][i] == s[i + 1] && s[1..][j] == s[j + 1];
    }
    KeySetMembers(s[1..], key);
    forall i | 0 <= i < |s[1..]| ensures key(s[1..][i]) != key(s[0]) {
      assert s[1..][i] == s[i + 1];
    }
  }

  lemma {:induction false} FilterIsSubsequence<T>(s: seq<T>, p: T -> bool)
    ensures IsSubsequence(Filter(s, p), s)
    decreases |s|
  {
    if s != [] {
      FilterIsSubsequence(s[1..], p);
    }
  }

  /** Every element of a subsequence is an element of the whole. */
  lemma {:induction false} SubsequenceMembers<T>(a: seq<T>, b: seq<T>)
    requires IsSubsequence(a, b)
    ensures forall i :: 0 <= i < |a| ==> a[i] in b
    decreases |b|
  {
    if b != [] {
      if a != [] && a[0] == b[0] && IsSubsequence(a[1..], b[1..]) {
        SubsequenceMembers(a[1..], b[1..]);
        forall i | 0 < i < |a| ensures a[i] in b {
          assert a[i] == a[1..][i - 1];
        }
      } else {
        SubsequenceMembers(a, b[1..]);
      }
    }
  }

  /** A subsequence is no longer than the whole. */
  lemma {:induction false} SubsequenceLength<T>(a: seq<T>, b: seq<T>)
    requires IsSubsequence(a, b)
    ensures |a| <= |b|
    decreases |b|
  {
    if b != [] {
      if a != [] && a[0] == b[0] && IsSubsequence(a[1..], b[1..]) {
        SubsequenceLength(a[1..], b[1..]);
      } else {
        SubsequenceLength(a, b[1..]);
      }
    }
  }

  /** The keys of a subsequence are keys of the whole. */
  lemma {:induction false} SubsequenceKeys<T>(a: seq<T>, b: seq<T>, key: T -> int)
    requires IsSubsequence(a, b)
    ensures KeySet(a, key) <= KeySet(b, key)
    decreases |b|
  {
    if b != [] {
      if a != [] && a[0] == b[0] && IsSubsequence(a[1..], b[1..]) {
        SubsequenceKeys(a[1..], b[1..], key);
      } else {
        SubsequenceKeys(a, b[1..], key);
      }
    }
  }

  /** Deleting elements cannot create a repeated key. */
  lemma {:induction false} SubsequenceKeepsUnique<T>(a: seq<T>, b: seq<T>, key: T -> int)
    requires IsSubsequence(a, b)
    requires UniqueBy(b, key)
    ensures UniqueBy(a, key)
    decreases |b|
  {
    if b != [] {
      UniqueTail(b, key);
      if a != [] && a[0] == b[0] && IsSubsequence(a[1..], b[1..]) {
        SubsequenceKeepsUnique(a[1..], b[1..], key);
        SubsequenceKeys(a[1..], b[1..], key);
        KeySetMembers(a[1..], key);
        forall i, j | 0 <= i < j < |a| ensures key(a[i]) != key(a[j]) {
          assert a[j] == a[1..][j - 1];
          if i > 0 {
            assert a[i] == a[1..][i - 1];
          }
        }
      } else {
        SubsequenceKeepsUnique(a, b[1..], key);
      }
    }
  }

  /** Filtering out the elements whose key lies in `gone` shortens a uniquely keyed
      sequence by exactly the number of its keys that lie in `gone`. */
  lemma {:induction false} FilterOutKeysLength<T>(s: seq<T>, key: T -> int, gone: set<int>, keep: T -> bool)
    requires UniqueBy(s, key)
    requires forall x :: keep(x) <==> key(x) !in gone
    ensures |Filter(s, keep)| == |s| - |gone * KeySet(s, key)|
    decreases |s|
  {
    if s != [] {
      UniqueTail(s, key);
      FilterOutKeysLength(s[1..], key, gone, keep);
      var k0 := key(s[0]);
      if k0 in gone {
        assert gone * KeySet(s, key) == {k0} + gone * KeySet(s[1..], key);
      } else {
        assert gone * KeySet(s, key) == gone * KeySet(s[1..], key);
      }
    }
  }
}

=== FILE: wrappers.dfy ===
/** The optional value used wherever the program has `undefined`, `null` or "not found". */
module Wrappers {

  datatype Option<+T> = None | Some(value: T)
}
